=== FILE: README.md ===
# FanForge marketplace: the consistency core in Dafny

FanForge is a marketplace where buyers order merchandise from sellers, and sellers are either OFFICIAL or FAN_MADE. This project models the part of its backend that keeps users, seller profiles, products, orders and categories consistent with each other:

- **The order state machine.** Placement guards, buyer cancellation while PENDING, and the seller's one-step advance PENDING → ACCEPTED → PROCESSING → SHIPPED → DELIVERED. The buyer's order list hides the seller's contact on PENDING orders.
- **The cascades.** Banning a user, removing a seller, approving a seller (the profile's approval and the user's SELLER role change together) and retyping a seller together with all of its products.
- **The approval and visibility gate.** Who may create, see, edit, approve or remove a product. Any edit sends the product back for approval. The guards `authenticate`, `requireRole`, `requireSuperAdmin` and `requireSeller` are modelled too.
- **The smaller rule sets.** These are:
  - the seller application and the profile-edit whitelist;
  - registration and login;
  - the request schemas' bounds;
  - unique category names;
  - the partial profile update;
  - the dashboard counts;
  - the public category pages.

## How it is modelled

**The store.** The store (`Entities.Store`) is five maps keyed by id, one per table. Every handler is a pure function that takes the store, the caller and the request, and returns a `Result`:

- on success, the new store and the response value;
- on failure, `Err(code, message)` with the HTTP status and the handler's own message.

A failure returns no store, so a failed request changes nothing. Each database transaction is one step from store to store.

**Outside inputs.** These arrive as parameters:

- The clock is `now`.
- New row ids come as `newId`, which must not already be a key.
- Password hashing and comparison are the functions `hash` and `matches`.
- Token signing and verification are the functions `sign` and `verify`.
- The image host's answers for uploaded files are passed as a list, with a refusal marked where the host refused a file.

**Dangling references.** A write or a relation read that finds no row answers 500 and changes nothing. Examples are updating a user row that is missing, or reading `product.seller` of a product whose seller is gone.

**The schema's constraints.** `Entities.Wf` collects them:

- unique emails;
- one profile per user;
- unique category names;
- foreign keys that resolve;
- `isCancelled` set exactly on CANCELLED orders;
- a type on every approved seller.

Every handler that writes the store is proved to keep `Wf`. Each cascade is proved next to its definition; every other handler is proved in `Integrity`.

**Behaviours of the code that the model keeps:**

- **Ordering your own product** is answered 400 (`src/controllers/order.controller.js:33-35`).
- **`placeOrder`** checks only the product's approval and deletion. It never looks at the seller profile's approval or deletion.
- **`approveSeller` and `approveProduct`** do not look at `isDeleted`. A deleted profile or product can be approved, and it stays deleted.
- **`removeSeller`** has no guard against a seller that was already removed. It also soft-deletes the profile's owner whatever their role, including a super-admin who applied as a seller. This is shown by `AdminSellerController.RemovalReachesSuperAdmin`.
- **Retyping a seller** also retypes its deleted and unapproved products.
- **Seller applications.** The store allows at most one profile per user, deleted or not. `applyToBecomeSeller` refuses any existing profile, so a removed seller cannot apply again.
- **The buyer's order list** hides the seller's contact only on PENDING orders. An order cancelled while PENDING therefore shows the contact (`OrderController.ContactShownOncePastPending`).
- **The `isDeleted` test in `getMe`** reads a field its query does not select. A deleted caller's record is still returned.

## Model

| member | source | states |
|---|---|---|
| Constants.ParseRole | src/utils/constants.js:1-5 | a role name parses to exactly the role that has that name, and nothing else parses |
| Constants.ParseSellerType | src/utils/constants.js:7-10 | OFFICIAL and FAN_MADE are the only seller type names, each naming exactly one type |
| Constants.ParseStatus | src/utils/constants.js:12-19 | the six order status names correspond one-to-one to the statuses |
| Entities.ProfileOf | src/controllers/seller.controller.js:9-11 | the lookup by owner finds a profile owned by that user, and finds none exactly when the user owns none |
| Entities.UserByEmail | src/controllers/auth.controller.js:11-13 | the lookup by email finds a user with that email, and finds none exactly when no user, deleted or not, has it |
| Entities.CategoryByName | src/controllers/admin.category.controller.js:9-11 | the lookup by name finds a category with that name, and finds none exactly when no category has it |
| Entities.SkeletonKeepsWf | src/controllers/admin.user.controller.js:136-193 | writes that only flip flags, statuses and free text cannot break uniqueness or a foreign key |
| Entities.ProfileOfFindsTheProfile | src/controllers/seller.controller.js:9-11 | under the unique owner constraint, the lookup finds the user's one profile |
| Strings.Split | src/middleware/auth.js:14 | `split` yields at least one piece, and no piece contains the separator |
| Strings.JoinSplit | src/middleware/auth.js:14 | joining the pieces of a split with the separator gives back the original string |
| Strings.LessEqTotal | src/controllers/category.controller.js:6-7 | any two names are ordered one way or the other |
| Strings.LessEqAntisymmetric | src/controllers/category.controller.js:6-7 | two names ordered both ways are equal |
| Strings.LessEqTransitive | src/controllers/category.controller.js:6-7 | the name order is transitive |
| Pagination.CeilDiv | src/controllers/admin.product.controller.js:83 | `totalPages` pages of `limit` rows hold every row, and one page fewer would not |
| Pagination.Paginate | src/controllers/product.controller.js:144-153 | the pagination block echoes page and limit, and its page count covers the total with no empty last page |
| Pagination.PageSize | src/controllers/admin.product.controller.js:46-54 | a page holds at most `limit` rows, and holds any row exactly when its offset is below the total |
| Pagination.PageHasRowsIffWithinCount | src/controllers/product.controller.js:84 | a page has rows exactly when its number is at most `totalPages` |
| Pagination.CoveredIsPrefix | src/controllers/product.controller.js:84 | pages 1..n together hold the first min(total, n·limit) rows |
| Pagination.PagesPartitionRows | src/controllers/product.controller.js:151 | pages 1..totalPages together hold every row exactly once |
| Validation.StatusValidatorTargets | src/utils/validation.schemas.js:68-72 | the status validator accepts exactly the names of ACCEPTED, PROCESSING, SHIPPED and DELIVERED, and never PENDING or CANCELLED |
| Validation.UpdatesMayOmitEveryField | src/utils/validation.schemas.js:54-59 | a body with none of the fields passes each update schema |
| OrderController.Advance | src/controllers/order.controller.js:296-312 | a cancelled order cannot move; otherwise the move succeeds exactly when the target is the status's one successor, with the source's message on failure, and progress rises by one |
| OrderController.Cancel | src/controllers/order.controller.js:230-240 | cancellation succeeds exactly on a PENDING order, and sets both CANCELLED and the tombstone |
| OrderController.CancelledIsFinal | src/controllers/order.controller.js:296-299 | no sequence of seller moves and buyer cancellations changes a cancelled order |
| OrderController.RunNeverMovesBack | src/controllers/order.controller.js:302-312 | along any sequence of requests an order's progress never decreases |
| OrderController.LifecycleToDelivery | src/controllers/order.controller.js:302-308 | a fresh order reaches DELIVERED through ACCEPTED, PROCESSING and SHIPPED, one request each |
| OrderController.DeliveredAcceptsNothing | src/controllers/order.controller.js:307-311 | a delivered order accepts no target and cannot be cancelled |
| OrderController.PlaceOrder | src/controllers/order.controller.js:28-47 | 404 unless the product exists, is approved and is not deleted, with the seller's state not consulted; 400 for one's own product; otherwise exactly one new PENDING order from the caller to the product's seller holding the given contact |
| OrderController.CancelOrder | src/controllers/order.controller.js:221-240 | 404, then 403 for another buyer's order, then 400 unless PENDING; success cancels that order and changes nothing else |
| OrderController.UpdateOrderStatus | src/controllers/order.controller.js:271-316 | 404 without a profile or order, 403 for another seller's order, 400 for a cancelled order or a non-successor target; success moves only that order's status to its successor |
| OrderController.GetBuyerOrders | src/controllers/order.controller.js:96-150 | the list holds exactly the caller's orders with the requested status, and the seller's contact is withheld exactly on PENDING orders |
| OrderController.ContactShownOncePastPending | src/controllers/order.controller.js:139-150 | every non-PENDING order, a cancelled one included, shows the seller's full card with contact |
| AdminUserController.BanUser | src/controllers/admin.user.controller.js:123-193 | 404, 403 for a super-admin, 400 if already banned; otherwise the user, their profile and its products are soft-deleted, and their active orders as seller and as buyer are cancelled, all at once |
| AdminUserController.BanLeavesNoActiveOrder | src/controllers/admin.user.controller.js:166-192 | after a ban no order bought by the user or sold by their profile is still active |
| AdminUserController.BanTwiceRefused | src/controllers/admin.user.controller.js:131-133 | banning the same user again is refused with 400 |
| AdminUserController.BanPreservesWf | src/controllers/admin.user.controller.js:136-193 | a ban keeps the store consistent |
| AdminUserController.RemoveAdmin | src/controllers/admin.user.controller.js:253-272 | 404, 400 for a non-admin, 403 for a super-admin; otherwise only that user is soft-deleted |
| AdminUserController.AddAdmin | src/controllers/admin.user.controller.js:210-227 | refuses an email any user holds; otherwise adds exactly one ordinary, non-deleted admin with the given email, name, phone and address and the hashed password |
| AdminUserController.AddAdminPreservesWf | src/controllers/admin.user.controller.js:218-227 | adding an admin keeps the store consistent |
| AdminUserController.GetAllUsers | src/controllers/admin.user.controller.js:10-56 | the listing holds exactly the non-deleted users of the named role, or of every role when the role is absent or unknown, without passwords, and counts them |
| AdminUserController.BanHidesUser | src/controllers/admin.user.controller.js:136-143 | after a ban the user is missing from every user listing, and every other listed user is listed as before |
| AdminUserController.RemoveAdminHidesUser | src/controllers/admin.user.controller.js:267-272 | after an admin's removal that admin is missing from every user listing, and every other listed user is listed as before |
| AdminUserController.AddedAdminIsListed | src/controllers/admin.user.controller.js:218-227 | a newly added admin appears in the ADMIN listing and in the unfiltered one |
| AdminUserController.RoleListingsPartition | src/controllers/admin.user.controller.js:11-18 | the BUYER, SELLER and ADMIN listings are disjoint, together hold exactly the unfiltered listing, and their counts add up to its count |
| AdminSellerController.GetPendingSellers | src/controllers/admin.seller.controller.js:7-11 | exactly the profiles that are neither approved nor deleted |
| AdminSellerController.ApprovalLeavesQueue | src/controllers/admin.seller.controller.js:65-97 | an approved profile is out of the pending queue afterwards, every other queued profile stays as it was, and it was queued unless deleted |
| AdminSellerController.ApproveSeller | src/controllers/admin.seller.controller.js:65-97 | a bad type is refused before the store is read; then 404 and 400 for an approved profile, with deletion not consulted; success approves and types the profile and makes its user a SELLER, nothing else |
| AdminSellerController.ApprovalIsAtomic | src/controllers/admin.seller.controller.js:83-97 | after approval the profile is approved and typed together with its user's SELLER role, and a second approval is refused |
| AdminSellerController.ApprovePreservesWf | src/controllers/admin.seller.controller.js:83-97 | approval keeps the store consistent |
| AdminSellerController.ChangeSellerType | src/controllers/admin.seller.controller.js:118-140 | a bad type is refused first, then 404; success retypes the profile and every product with its seller id, deleted or not, and reports how many there are |
| AdminSellerController.RetypeKeepsProductsInSync | src/controllers/admin.seller.controller.js:131-140 | after a retype every product of the seller carries the seller's type, and no approval, deletion, name or price has changed |
| AdminSellerController.RetypePreservesWf | src/controllers/admin.seller.controller.js:131-140 | a retype keeps the store consistent |
| AdminSellerController.RemoveSeller | src/controllers/admin.seller.controller.js:153-203 | 404 only; otherwise the profile, all its products and its owner are soft-deleted and its active orders as seller are cancelled, all at once |
| AdminSellerController.RemovePreservesWf | src/controllers/admin.seller.controller.js:162-203 | a removal keeps the store consistent |
| AdminSellerController.RemovalSparesPurchasesUnlikeBan | src/controllers/admin.seller.controller.js:181-193 | in every store, for a profile whose owner is live and not a super-admin, the removal and a ban of that owner both succeed, and an active order the owner placed with another seller survives the removal unchanged but is cancelled by the ban |
| AdminSellerController.RemovalReachesSuperAdmin | src/controllers/admin.seller.controller.js:195-202 | a super-admin who owns a profile is soft-deleted by its removal |
| ProductController.Gallery | src/controllers/product.controller.js:51-56 | each uploaded image keeps its url and id, and its position becomes its order |
| ProductController.ApprovedProfileOf | src/controllers/product.controller.js:20-26 | the caller's profile is found exactly when it exists and is approved |
| ProductController.CreateProduct | src/controllers/product.controller.js:11-56 | 400 for no images or more than 5, 403 without an approved profile (deletion not consulted), 404 for an unknown category, then 500 "Image upload failed" with nothing written when the image host refuses any file; success adds one unapproved product with the seller's type and the gallery in upload order |
| ProductController.ListProducts | src/controllers/product.controller.js:87-151 | only approved, non-deleted products are listed, each satisfying every given filter (category, price bounds, non-empty search on name or shop name, a known product type); every such product is listed, and the count matches |
| ProductController.UnfilteredListingIsPublished | src/controllers/product.controller.js:87-90 | without filters the listing is exactly the approved, non-deleted products |
| ProductController.UnknownTypeFiltersNothing | src/controllers/product.controller.js:113-115 | a productType that names no seller type leaves the listing as if it were absent |
| ProductController.GetProductById | src/controllers/product.controller.js:183-197 | deleted or unknown products are a 404 for everyone; an unapproved one is shown exactly to an admin or its owner, refused with 404 to any other signed-in viewer, and fails with 500 for an anonymous viewer, whose owner lookup runs without a key |
| ProductController.ListedIsViewable | src/controllers/product.controller.js:183-197 | any listed product opens for every viewer |
| ProductController.AnonymousSeesOnlyPublished | src/controllers/product.controller.js:187-196 | an anonymous viewer sees exactly the approved, non-deleted products |
| ProductController.OwnedLiveProduct | src/controllers/product.controller.js:246-261 | 404 without a profile, 404 for a missing or deleted product, 403 for another seller's product, in that order |
| ProductController.UpdateProduct | src/controllers/product.controller.js:246-284 | the owner's guards, 404 for an unknown category, 400 when no truthy field is given; success writes exactly the truthy fields and unapproves that product alone |
| ProductController.EditUnpublishes | src/controllers/product.controller.js:283-284 | an edited product leaves the public listing and the anonymous view until it is approved again |
| ProductController.DeleteProduct | src/controllers/product.controller.js:311-336 | the owner's guards; success soft-deletes that product alone |
| ProductController.DeletedIsGone | src/controllers/product.controller.js:321-323 | a deleted product is not found by any viewer, and deleting it again is a 404 |
| AdminProductController.GetPendingProducts | src/controllers/admin.product.controller.js:8-12 | exactly the products that are neither approved nor deleted |
| AdminProductController.PendingAndPublishedSplitLiveProducts | src/controllers/admin.product.controller.js:8-12 | a live product is in the approval queue exactly when it is not published |
| AdminProductController.ListAllProducts | src/controllers/admin.product.controller.js:48-73 | exactly the non-deleted products, approved or not, and their count |
| AdminProductController.AdminCountSplits | src/controllers/admin.product.controller.js:71-73 | the admin count is the approval queue plus the public catalogue |
| AdminProductController.ApproveProduct | src/controllers/admin.product.controller.js:103-115 | 404, 400 if already approved; success approves that product and changes nothing else, deletion included |
| AdminProductController.ApprovalPublishes | src/controllers/admin.product.controller.js:103-115 | approving a queued product moves it from the queue into the public listing |
| AdminProductController.ApprovalDoesNotRevive | src/controllers/admin.product.controller.js:103-115 | a deleted product can be approved, and stays hidden from every viewer |
| AdminProductController.RemoveProduct | src/controllers/admin.product.controller.js:145-156 | succeeds for any existing product, owned by anyone and even if already deleted, and soft-deletes it alone |
| AdminProductController.RemovedIsGone | src/controllers/admin.product.controller.js:145-156 | a removed product is in no listing and opens for no viewer |
| AuthMiddleware.BearerToken | src/middleware/auth.js:10-14 | a token is found exactly when the header is present and starts with "Bearer " |
| AuthMiddleware.BearerTokenRoundTrip | src/middleware/auth.js:14 | the token of "Bearer " followed by a space-free token is that token |
| AuthMiddleware.Authenticate | src/middleware/auth.js:10-53 | 401 for no token, an invalid or expired token, or a missing or deleted user; otherwise the caller is that live user's identity |
| AuthMiddleware.RequireRole | src/middleware/auth.js:59-66 | passes exactly when the caller's role is among the allowed ones, else 403 |
| AuthMiddleware.RequireSuperAdmin | src/middleware/auth.js:69-74 | passes exactly for a super-admin, else 403 |
| AuthMiddleware.RequireSeller | src/middleware/auth.js:77-92 | passes exactly for the SELLER role with an approved, non-deleted profile, each failure with its own 403 |
| AuthController.Register | src/controllers/auth.controller.js:15-31 | refuses an email any user holds; otherwise adds exactly one live BUYER, with no deletion time, holding the given email, name, phone and address and the hashed password, and answers without it |
| AuthController.RegisterKeepsEmailsUnique | src/controllers/auth.controller.js:11-17 | registration keeps emails unique, and the same email cannot register twice |
| AuthController.Login | src/controllers/auth.controller.js:55-105 | 401 for an unknown email, 403 for a deleted account before the password is compared, 401 for a wrong password; success answers the user without the password and a token for their claims |
| AuthController.LoginDoesNotLeakAccounts | src/controllers/auth.controller.js:68-82 | an unknown email and a wrong password get the same answer |
| AuthController.DeactivationDecidesFirst | src/controllers/auth.controller.js:72-75 | a deactivated account answers the same whatever password is tried |
| AuthController.LoginTokenAuthenticates | src/controllers/auth.controller.js:85-94 | the token a login hands out authenticates as the same user with the same role |
| AuthController.GetMe | src/controllers/auth.controller.js:110-135 | the caller's record without the password, found whenever the row exists, deleted or not |
| SellerController.Apply | src/controllers/seller.controller.js:9-43 | any existing profile, even a deleted one, is refused with the message for its approval state; otherwise one new unapproved, untyped profile holding the application |
| SellerController.ApplicationWaits | src/controllers/seller.controller.js:13-19 | applying leaves the role unchanged, keeps one profile per user, and a second application is refused as pending |
| SellerController.UpdateSellerProfile | src/controllers/seller.controller.js:87-111 | 404 without a profile, 400 when none of the seven fields is present; success copies exactly the present fields, and approval, type, owner and deletion never change |
| SellerController.ProfileEditIdempotent | src/controllers/seller.controller.js:92-107 | repeating an accepted edit changes nothing more |
| UserController.UpdateProfile | src/controllers/user.controller.js:47-62 | 400 when no field is non-empty; otherwise only the caller's name, phone and address change, and only as given |
| UserController.EmptyIsAbsent | src/controllers/user.controller.js:51-53 | an empty name or address is the same request as leaving it out |
| AdminCategoryController.CreateCategory | src/controllers/admin.category.controller.js:13-15 | refuses a name some category already has; otherwise adds exactly one category |
| AdminCategoryController.UpdateCategory | src/controllers/admin.category.controller.js:40-62 | 404, 400 for a rename to another category's name, 400 when nothing is given; success writes a non-empty name and any present description to that category alone |
| AdminCategoryController.KeepingTheNameIsAllowed | src/controllers/admin.category.controller.js:45-53 | resubmitting a category's own name is not a conflict |
| AdminCategoryController.CreateKeepsNamesUnique | src/controllers/admin.category.controller.js:13-15 | creation keeps category names unique |
| AdminCategoryController.UpdateKeepsNamesUnique | src/controllers/admin.category.controller.js:45-62 | an update keeps category names unique |
| CategoryController.ByName | src/controllers/category.controller.js:6-7 | the ids in ascending name order, each exactly once |
| CategoryController.GetAllCategories | src/controllers/category.controller.js:6-16 | every category exactly once, in ascending name order, each with its count of approved, non-deleted products |
| CategoryController.NamesStrictlyAscend | src/controllers/category.controller.js:6-7 | with unique names the listed names strictly ascend |
| CategoryController.GetCategoryById | src/controllers/category.controller.js:32-50 | 404 for an unknown id; otherwise the category with the same count of approved, non-deleted products |
| CategoryController.PagesAgree | src/controllers/category.controller.js:35-42 | the single-category page shows exactly what the list shows for that category |
| Analytics.GetAnalytics | src/controllers/admin.analytics.controller.js:18-48 | each figure is the size of the set it names: live users, live users of each role, live products, approved live products, pending and delivered orders, categories; hence buyers, sellers and admins add up to the live users, approved and pending to the live products, and the pending figure is the approval queue |
| Analytics.ApprovalMovesOneProduct | src/controllers/admin.product.controller.js:103-120 | approving a queued product moves exactly one product from the pending figure to the approved one, and every other figure stays |
| Analytics.UsersSplitByRole | src/controllers/admin.analytics.controller.js:19-30 | every live user has exactly one of the three roles |
| Analytics.ProductsSplitByApproval | src/controllers/admin.analytics.controller.js:31-39 | every live product is either approved or pending |
| Analytics.OrderStatusesDisjoint | src/controllers/admin.analytics.controller.js:40-46 | pending and delivered orders together number at most all orders |
| Integrity.PlaceOrderKeepsWf | src/controllers/order.controller.js:38-47 | placing an order keeps the store consistent |
| Integrity.CancelOrderKeepsWf | src/controllers/order.controller.js:235-240 | a cancellation keeps the store consistent |
| Integrity.UpdateOrderStatusKeepsWf | src/controllers/order.controller.js:314-316 | a status move keeps the store consistent |
| Integrity.CreateProductKeepsWf | src/controllers/product.controller.js:42-56 | creating a product keeps the store consistent |
| Integrity.UpdateProductKeepsWf | src/controllers/product.controller.js:286-293 | editing a product keeps the store consistent |
| Integrity.DeleteProductKeepsWf | src/controllers/product.controller.js:330-336 | deleting a product keeps the store consistent |
| Integrity.ApproveProductKeepsWf | src/controllers/admin.product.controller.js:111-120 | approving a product keeps the store consistent |
| Integrity.RemoveProductKeepsWf | src/controllers/admin.product.controller.js:150-156 | removing a product keeps the store consistent |
| Integrity.RegisterKeepsWf | src/controllers/auth.controller.js:23-31 | registration keeps the store consistent |
| Integrity.RemoveAdminKeepsWf | src/controllers/admin.user.controller.js:267-272 | removing an admin keeps the store consistent |
| Integrity.UpdateProfileKeepsWf | src/controllers/user.controller.js:60-62 | a profile edit keeps the store consistent |
| Integrity.ApplyKeepsWf | src/controllers/seller.controller.js:32-43 | an application keeps the store consistent, with one profile per user |
| Integrity.UpdateSellerProfileKeepsWf | src/controllers/seller.controller.js:113-116 | a seller profile edit keeps the store consistent |
| Integrity.CreateCategoryKeepsWf | src/controllers/admin.category.controller.js:13-15 | creating a category keeps the store consistent |
| Integrity.UpdateCategoryKeepsWf | src/controllers/admin.category.controller.js:45-62 | updating a category keeps the store consistent |
| Integrity.CreateProductKeepsPricesPositive | src/utils/validation.schemas.js:50 | a validated creation keeps every product price positive |
| Integrity.UpdateProductKeepsPricesPositive | src/utils/validation.schemas.js:57 | a validated edit keeps every product price positive |
| Integrity.ApplyKeepsProfilesComplete | src/utils/validation.schemas.js:25-27 | a validated application keeps every profile with a payment method, a positive shipping cost and positive delivery days |
| Integrity.UpdateSellerProfileKeepsProfilesComplete | src/utils/validation.schemas.js:35-37 | a validated profile edit keeps those three properties |
| Integrity.PlaceOrderKeepsContactsComplete | src/utils/validation.schemas.js:63-64 | a validated order keeps every order's address at least 5 and phone at least 10 characters long |
| Integrity.ValidatedStatusNeverCancels | src/utils/validation.schemas.js:68-72 | a status that passes the validator never moves an order to PENDING or CANCELLED |
| Scenarios.BanLocksOut | src/middleware/auth.js:33-35 | after a ban the user's tokens are refused and login answers "deactivated" |
| Scenarios.ApprovalOpensSellerRoutes | src/middleware/auth.js:77-92 | after approval of a live profile, its owner authenticates as a SELLER and passes `requireSeller` |
| Scenarios.SellerGateCoversCreation | src/controllers/product.controller.js:20-26 | whoever passes `requireSeller` passes the approval guard of product creation |
| Scenarios.SellerLifecycle | src/controllers/admin.seller.controller.js:61-203 | apply, approval as FAN_MADE, retype to OFFICIAL and removal each succeed; the type follows the admin's choices, and afterwards the user cannot authenticate |
| Scenarios.ApplicationJoinsQueue | src/controllers/seller.controller.js:31-44 | an accepted application enters the pending queue as the applicant's untyped profile, and every profile already queued stays as it was |
| Scenarios.RegisteredUserSeesThemselves | src/controllers/auth.controller.js:23-31 | right after registering, the caller's own profile is the registration's answer: the given email, name, phone and address, as a live BUYER |
| Scenarios.ProfileEditShowsOnMe | src/controllers/user.controller.js:60-71 | after a profile edit, the caller's own profile is the edit's answer: the fields it set, and every other field as shown before |

## Left out

- **Notifications.** The e-mails sent after orders, approvals and cancellations are not modelled. Their sender swallows every failure, so they never change a result.
- **The image host.** Its answers arrive as a parameter, one per file, each an upload or a refusal. Deleting images after a product is deleted is best-effort and not modelled.
- **Cryptography.** Password hashing and comparison, and token signing and verification, are parameters. A token's expiry is the verifier's `Expired` answer.
- **Request validation.** Each request schema is a predicate (`Validation`), and the handlers take already-typed bodies. The e-mail and uuid formats are not modelled. The 400 answer that the validation middleware sends is not modelled either. String lengths are counted in Unicode scalar values, the length of a Dafny `string`, while the schemas' `.min`/`.max` bounds count UTF-16 code units: a character outside the Basic Multilingual Plane, such as an emoji, counts once in the model and twice in the source, so for text holding such characters the model can refuse a body that the source accepts (a one-emoji full name against `min(2)`, say). `Integrity.PlaceOrderKeepsContactsComplete`'s minimum lengths are counted the same way.
- **Routing.** The wiring of guards before handlers is not modelled. The admin user routes import an `unbanUser` handler that the user controller never exports; that handler is not part of this model.
- **Handlers outside the core.** These are not modelled: `getSellerOrders`, `getOrderById`, `getAllSellers`, `getUserById`, `getProfile`, `getSellerProfile`, `getAllCategoriesAdmin` and `getMyProducts`.
- **Order, paging and timestamps.**
  - The creation-time order of listings is not modelled. A listing is the map of its matching rows together with its count and page block. `Pagination.PageSize` states how many rows a page holds.
  - Every timestamp of one request is the single `now`, although `removeSeller` and `banUser` read the clock several times.
- Pagination.Paginate: requires `limit > 0`, because `parseInt` of a non-number and a zero limit give NaN or Infinity in the source. It also requires `page >= 1`: for a page of 0 or less the source computes a negative `skip` (src/controllers/product.controller.js:84, src/controllers/admin.user.controller.js:8, src/controllers/admin.product.controller.js:46), which the database client refuses, so such a request ends in the error handler's 500 rather than a page. The listings that use it (`AdminUserController.GetAllUsers`, `ProductController.ListProducts`, `AdminProductController.ListAllProducts`) carry both requirements, and the model does not describe that failed request.
- **Prices and costs** are `real`, not floating point.
- **Searching.** Case-insensitive matching folds ASCII letters only. The database collation is not modelled.
- **Ties between names.** Two categories with the same name are ordered arbitrarily; under `Wf` there are none.
- **Concurrency.** Races between requests and transaction isolation are not modelled; each transaction is one atomic step.
- **The 500 answer.** The error handler is not part of this model, so its message `"Internal server error"` is a placeholder. Where the code raises its own 500 with a message (`"Image upload failed"`), the model answers with that message.
- **The buyer's status filter.** An unknown status name in the buyer's order list makes the store query fail. The model takes the filter as an already-parsed status.
- **Categories on the wire.** `UpdateCategory` takes the name as optional, as the handler does. The route's schema makes the name mandatory in practice.
- OrderController.PlaceOrder: a caller whose user row no longer exists is not given its own error case, because `authenticate` admits only existing users; `Integrity.PlaceOrderKeepsWf` assumes such a caller.
- ProductController.GetProductById: the viewer is a parameter. The route does not run `authenticate`, so in the running system the viewer is always absent; the case of a signed-in viewer is modelled as the handler's code reads.
- AuthController.GetMe: answers with the whole `UserInfo`, which also carries `isDeleted` and `deletedAt`; the handler's select returns neither, and adds `createdAt` and a summary of the seller profile (id, business name, approval, type), which the model does not return.
- Integrity.CreateProductKeepsPricesPositive: the price is one number in the model, both validated and stored. The source reads the price text twice: the schema coerces it with `Number` (`src/utils/validation.schemas.js:50`), while the handler stores `parseFloat` of the same text (`src/controllers/product.controller.js:46`), and the validation middleware does not replace the body with the parsed one (`src/middleware/validation.js:6`). For texts where the two readings differ, such as `"0x10"` (16 for `Number`, 0 for `parseFloat`; `"0b1"` and `"0o7"` alike), the schema accepts a price the handler stores as 0. The lemma holds only for texts the two readings agree on.
- Integrity.UpdateProductKeepsPricesPositive: the same double reading applies to an edit (`src/utils/validation.schemas.js:57` against `src/controllers/product.controller.js:267`), so the lemma holds only for price texts `Number` and `parseFloat` read alike.
- OrderController.GetBuyerOrders: each `BuyerOrderView` holds the order and the seller card; the handler also includes the ordered product with its first image (`src/controllers/order.controller.js:107-115`), which the model does not return.
- AdminSellerController.GetPendingSellers: answers the profiles alone; the handler also includes each owner's id, full name, email and phone (`src/controllers/admin.seller.controller.js:12-21`), which the model does not return.
- AuthController.Login: answers the session's user as `UserInfo`; the handler answers the whole row without its password, which also carries `createdAt`, `updatedAt` and the included seller-profile summary (id, approval, type), none of which the model returns.
- AuthController.Register: answers with the whole `UserInfo`; the handler's select omits `isSuperAdmin`, `isDeleted` and `deletedAt`, and adds `createdAt`.
- UserController.UpdateProfile: answers with the whole `UserInfo`; the handler's select omits `isSuperAdmin`, `isDeleted` and `deletedAt`, and adds `updatedAt`.
- AdminUserController.GetAllUsers: lists each user as the whole `UserInfo`, which also carries `isDeleted` and `deletedAt`; the handler's select returns neither, and adds `createdAt` and the seller-profile summary.
- CategoryController.ByName: orders names by character code (`Strings.LessEq`). The database sorts by its collation, which is not modelled, so for mixed case or non-ASCII names the two orders can differ; `CategoryController.GetAllCategories` inherits this.
- AdminProductController.ApproveProduct: the approval e-mail reads the product's seller after the write. A product whose seller row is missing is not modelled.

=== FILE: admin_category_controller.dfy ===
/** Category administration: creation and update under the unique-name rule. */
module AdminCategoryController {
  import opened Outcomes
  import opened Entities
  import opened Validation

  const Duplicate: string := "Category with this name already exists"

  /** `createCategory`: refuses a name some category already has. The route's schema
      guarantees a name is given. */
  function CreateCategory(s: Store, name: string, description: Option<string>, newId: Id): (r: Result<(Store, Id)>)
    requires newId !in s.categories
    ensures r.Err? <==> exists k :: k in s.categories && s.categories[k].name == name
    ensures r.Err? ==> r == Err(400, Duplicate)
    ensures r.Ok? ==>
      var (s', id) := r.value;
      && id == newId
      && s'.categories == s.categories[newId := Category(name, description)]
      && s'.users == s.users && s'.sellers == s.sellers && s'.products == s.products && s'.orders == s.orders
  {
    if CategoryByName(s, name).Some? then Err(400, Duplicate)
    else Ok((s.(categories := s.categories[newId := Category(name, description)]), newId))
  }

  /** A name given and different from the category's current one: only then is it
      checked against the others. */
  predicate Renames(c: Category, input: CategoryInput)
  {
    input.name.Some? && |input.name.value| > 0 && input.name.value != c.name
  }

  /** `updateCategory`: a non-empty name replaces the current one, unless another
      category holds it; a present description always replaces the current one. */
  function UpdateCategory(s: Store, id: Id, input: CategoryInput): (r: Result<(Store, Category)>)
    ensures id !in s.categories ==> r == Err(404, "Category not found")
    ensures id in s.categories && Renames(s.categories[id], input) && CategoryByName(s, input.name.value).Some? ==>
      r == Err(400, Duplicate)
    ensures r.Ok? <==>
      && id in s.categories
      && (Renames(s.categories[id], input) ==> CategoryByName(s, input.name.value).None?)
      && ((input.name.Some? && |input.name.value| > 0) || input.description.Some?)
    ensures r.Ok? ==>
      var (s', c) := r.value;
      && OnlyCategoryChanged(s, s', id)
      && s'.categories[id] == c
      && c.name == (if input.name.Some? && |input.name.value| > 0 then input.name.value else s.categories[id].name)
      && c.description == (if input.description.Some? then input.description else s.categories[id].description)
  {
    if id !in s.categories then Err(404, "Category not found")
    else
      var c := s.categories[id];
      if Renames(c, input) && CategoryByName(s, input.name.value).Some? then Err(400, Duplicate)
      else
        var setsName := input.name.Some? && |input.name.value| > 0;
        if !setsName && input.description.None? then Err(400, "No fields to update")
        else
          var c' := Category(if setsName then input.name.value else c.name,
                             if input.description.Some? then input.description else c.description);
          Ok((s.(categories := s.categories[id := c']), c'))
  }

  /** Resubmitting a category's own name is not a conflict. */
  lemma KeepingTheNameIsAllowed(s: Store, id: Id, description: Option<string>)
    requires id in s.categories && |s.categories[id].name| > 0
    ensures UpdateCategory(s, id, CategoryInput(Some(s.categories[id].name), description)).Ok?
  {
  }

  lemma CreateKeepsNamesUnique(s: Store, name: string, description: Option<string>, newId: Id)
    requires newId !in s.categories && UniqueCategoryNames(s) && CreateCategory(s, name, description, newId).Ok?
    ensures UniqueCategoryNames(CreateCategory(s, name, description, newId).value.0)
  {
  }

  lemma {:induction false} UpdateKeepsNamesUnique(s: Store, id: Id, input: CategoryInput)
    requires UniqueCategoryNames(s) && UpdateCategory(s, id, input).Ok?
    ensures UniqueCategoryNames(UpdateCategory(s, id, input).value.0)
  {
    var s' := UpdateCategory(s, id, input).value.0;
    forall a, b | a in s'.categories && b in s'.categories && s'.categories[a].name == s'.categories[b].name
      ensures a == b
    {
      if a != id && b != id {
        assert s.categories[a].name == s.categories[b].name;
      }
    }
  }
}

=== FILE: admin_product_controller.dfy ===
/** The admin side of the product approval gate: the queue of products waiting for
    approval, the full listing, approval itself and removal. */
module AdminProductController {
  import opened Outcomes
  import opened Entities
  import opened Pagination
  import ProductController

  /** `getPendingProducts`: products neither approved nor deleted. */
  function GetPendingProducts(s: Store): (r: map<Id, Product>)
    ensures forall k :: k in r <==> k in s.products && !s.products[k].isApproved && !s.products[k].isDeleted
    ensures forall k :: k in r ==> r[k] == s.products[k]
  {
    map k | k in s.products && !s.products[k].isApproved && !s.products[k].isDeleted :: s.products[k]
  }

  /** A live product is either waiting for approval or published, never both. */
  lemma PendingAndPublishedSplitLiveProducts(s: Store, k: Id)
    requires k in s.products && !s.products[k].isDeleted
    ensures k in GetPendingProducts(s) <==> !ProductController.Published(s.products[k])
  {
  }

  /** `getAllProducts` (admin): every product that is not deleted, approved or not. */
  function ListAllProducts(s: Store, page: int, limit: int): (r: ProductController.ProductListing)
    requires page >= 1 && limit > 0
    ensures forall k :: k in r.products <==> k in s.products && !s.products[k].isDeleted
    ensures forall k :: k in r.products ==> r.products[k] == s.products[k]
    ensures r.pagination.total == |r.products| && r.pagination.totalPages == CeilDiv(|r.products|, limit)
  {
    var rows := map k | k in s.products && !s.products[k].isDeleted :: s.products[k];
    ProductController.ProductListing(rows, Paginate(|rows|, page, limit))
  }

  /** The admin listing's count is the pending queue plus the public catalogue. */
  lemma AdminCountSplits(s: Store, page: int, limit: int)
    requires page >= 1 && limit > 0
    ensures ListAllProducts(s, page, limit).pagination.total ==
      |GetPendingProducts(s)| + |ProductController.ListProducts(s, ProductController.NoFilter, page, limit).products|
  {
    var all := ListAllProducts(s, page, limit).products;
    var pending := GetPendingProducts(s);
    var published := ProductController.ListProducts(s, ProductController.NoFilter, page, limit).products;
    assert all.Keys == pending.Keys + published.Keys;
    assert pending.Keys * published.Keys == {};
    assert |all.Keys| == |pending.Keys| + |published.Keys|;
  }

  /** `approveProduct`: only approval changes. A deleted product is approved too, and
      stays deleted. */
  function ApproveProduct(s: Store, id: Id): (r: Result<(Store, Product)>)
    ensures id !in s.products ==> r == Err(404, "Product not found")
    ensures id in s.products && s.products[id].isApproved ==> r == Err(400, "Product is already approved")
    ensures r.Ok? <==> id in s.products && !s.products[id].isApproved
    ensures r.Ok? ==>
      var (s', p) := r.value;
      && OnlyProductChanged(s, s', id)
      && s'.products[id] == p
      && p.isApproved
      && p.isDeleted == s.products[id].isDeleted && p.deletedAt == s.products[id].deletedAt
      && SameProductContent(s.products[id], p)
  {
    if id !in s.products then Err(404, "Product not found")
    else if s.products[id].isApproved then Err(400, "Product is already approved")
    else
      var p := s.products[id].(isApproved := true);
      Ok((s.(products := s.products[id := p]), p))
  }

  /** Approval moves a live product from the queue to the public catalogue. */
  lemma ApprovalPublishes(s: Store, id: Id, page: int, limit: int)
    requires page >= 1 && limit > 0 && id in GetPendingProducts(s)
    ensures ApproveProduct(s, id).Ok?
    ensures var s' := ApproveProduct(s, id).value.0;
      && id !in GetPendingProducts(s')
      && id in ProductController.ListProducts(s', ProductController.NoFilter, page, limit).products
  {
  }

  /** Approving a deleted product does not bring it back. */
  lemma ApprovalDoesNotRevive(s: Store, id: Id, viewer: Option<Actor>)
    requires id in s.products && s.products[id].isDeleted && !s.products[id].isApproved
    ensures ApproveProduct(s, id).Ok?
    ensures ProductController.GetProductById(ApproveProduct(s, id).value.0, viewer, id).Err?
  {
  }

  /** `removeProduct`: soft-deletes any existing product, whoever owns it and even if it
      is already deleted. */
  function RemoveProduct(s: Store, id: Id, now: Time): (r: Result<Store>)
    ensures id !in s.products ==> r == Err(404, "Product not found")
    ensures r.Ok? <==> id in s.products
    ensures r.Ok? ==>
      && OnlyProductChanged(s, r.value, id)
      && r.value.products[id] == SoftDeletedProduct(s.products[id], now)
  {
    if id !in s.products then Err(404, "Product not found")
    else Ok(s.(products := s.products[id := SoftDeletedProduct(s.products[id], now)]))
  }

  /** A removed product is gone for every viewer and from every listing. */
  lemma RemovedIsGone(s: Store, id: Id, now: Time, viewer: Option<Actor>, page: int, limit: int)
    requires page >= 1 && limit > 0 && id in s.products
    ensures var s' := RemoveProduct(s, id, now).value;
      && ProductController.GetProductById(s', viewer, id) == Err(404, "Product not found")
      && id !in ListAllProducts(s', page, limit).products
      && id !in GetPendingProducts(s')
  {
  }
}

=== FILE: admin_seller_controller.dfy ===
/** Administration of sellers: the pending list, approval with the atomic role flip,
    retyping a seller together with all of its products, and the removal cascade. */
module AdminSellerController {
  import opened Constants
  import opened Outcomes
  import opened Entities
  import AdminUserController

  /** `getPendingSellers`: applications neither approved nor deleted. */
  function GetPendingSellers(s: Store): (r: map<Id, SellerProfile>)
    ensures forall k :: k in r <==> k in s.sellers && !s.sellers[k].isApproved && !s.sellers[k].isDeleted
    ensures forall k :: k in r ==> r[k] == s.sellers[k]
  {
    map k | k in s.sellers && !s.sellers[k].isApproved && !s.sellers[k].isDeleted :: s.sellers[k]
  }

  /** The `sellerType` body field names OFFICIAL or FAN_MADE; an absent field fails. */
  predicate NamesSellerType(sellerType: Option<string>)
  {
    sellerType.Some? && ParseSellerType(sellerType.value).Some?
  }

  const BadSellerType: string := "Valid seller type (OFFICIAL or FAN_MADE) is required"

  /** The declarative effect of approving profile `id` as type `t`: the profile is
      approved and typed, its user holds the SELLER role, and nothing else changes. */
  ghost predicate ApprovalApplied(s: Store, s': Store, id: Id, t: SellerType)
    requires id in s.sellers
  {
    var uid := s.sellers[id].userId;
    && uid in s.users
    && s'.sellers.Keys == s.sellers.Keys && s'.users.Keys == s.users.Keys
    && s'.sellers[id] == s.sellers[id].(isApproved := true, sellerType := Some(t))
    && s'.users[uid] == s.users[uid].(role := Seller)
    && (forall k :: k in s.sellers && k != id ==> s'.sellers[k] == s.sellers[k])
    && (forall k :: k in s.users && k != uid ==> s'.users[k] == s.users[k])
    && s'.products == s.products && s'.orders == s.orders && s'.categories == s.categories
  }

  /** `approveSeller`: the type is checked before the store is read; then the profile
      is approved and typed and its user becomes a SELLER, both in one transaction.
      Deleted profiles are not refused. */
  function ApproveSeller(s: Store, id: Id, sellerType: Option<string>): (r: Result<(Store, SellerProfile)>)
    ensures !NamesSellerType(sellerType) ==> r == Err(400, BadSellerType)
    ensures NamesSellerType(sellerType) && id !in s.sellers ==> r == Err(404, "Seller profile not found")
    ensures NamesSellerType(sellerType) && id in s.sellers && s.sellers[id].isApproved ==>
      r == Err(400, "Seller is already approved")
    ensures r.Ok? <==>
      NamesSellerType(sellerType) && id in s.sellers && !s.sellers[id].isApproved && s.sellers[id].userId in s.users
    ensures r.Ok? ==>
      && ApprovalApplied(s, r.value.0, id, ParseSellerType(sellerType.value).value)
      && r.value.1 == r.value.0.sellers[id]
  {
    if !NamesSellerType(sellerType) then Err(400, BadSellerType)
    else if id !in s.sellers then Err(404, "Seller profile not found")
    else
      var p := s.sellers[id];
      if p.isApproved then Err(400, "Seller is already approved")
      else if p.userId !in s.users then Err(InternalError, InternalMessage)
      else
        var p' := p.(isApproved := true, sellerType := ParseSellerType(sellerType.value));
        var u' := s.users[p.userId].(role := Seller);
        Ok((s.(sellers := s.sellers[id := p'], users := s.users[p.userId := u']), p'))
  }

  /** Approval is observed whole: the profile is approved and typed exactly when its
      user holds the SELLER role, and approving again is refused. */
  lemma ApprovalIsAtomic(s: Store, id: Id, sellerType: Option<string>)
    requires ApproveSeller(s, id, sellerType).Ok?
    ensures var s' := ApproveSeller(s, id, sellerType).value.0;
      && s'.sellers[id].isApproved
      && s'.sellers[id].sellerType.Some?
      && s'.users[s'.sellers[id].userId].role == Seller
      && ApproveSeller(s', id, sellerType) == Err(400, "Seller is already approved")
  {
  }

  /** An approved application is out of the pending queue, and the rest of the queue is
      as it was. It was in the queue unless its profile had been deleted, since approval
      does not refuse deleted profiles. */
  lemma ApprovalLeavesQueue(s: Store, id: Id, sellerType: Option<string>)
    requires ApproveSeller(s, id, sellerType).Ok?
    ensures var before := GetPendingSellers(s);
      var after := GetPendingSellers(ApproveSeller(s, id, sellerType).value.0);
      && (id in before <==> !s.sellers[id].isDeleted)
      && after.Keys == before.Keys - {id}
      && (forall k :: k in after ==> after[k] == before[k])
  {
    var s' := ApproveSeller(s, id, sellerType).value.0;
    assert ApprovalApplied(s, s', id, ParseSellerType(sellerType.value).value);
    var before := GetPendingSellers(s);
    var after := GetPendingSellers(s');
    forall k
      ensures k in after <==> k in before && k != id
    {
      if k != id && k in s.sellers {
        assert s'.sellers[k] == s.sellers[k];
      }
    }
  }

  lemma ApprovePreservesWf(s: Store, id: Id, sellerType: Option<string>)
    requires Wf(s) && ApproveSeller(s, id, sellerType).Ok?
    ensures Wf(ApproveSeller(s, id, sellerType).value.0)
  {
    ApprovalKeepsWf(s, ApproveSeller(s, id, sellerType).value.0, id, ParseSellerType(sellerType.value).value);
  }

  lemma ApprovalKeepsWf(s: Store, s': Store, id: Id, t: SellerType)
    requires Wf(s) && id in s.sellers && ApprovalApplied(s, s', id, t)
    ensures Wf(s')
  {
    ApprovalKeepsSkeleton(s, s', id, t);
    ApprovalKeepsFlags(s, s', id, t);
    SkeletonKeepsWf(s, s');
  }

  lemma ApprovalKeepsSkeleton(s: Store, s': Store, id: Id, t: SellerType)
    requires id in s.sellers && ApprovalApplied(s, s', id, t)
    ensures SameSkeleton(s, s')
  {
    forall k | k in s.users ensures s'.users[k].email == s.users[k].email {
    }
    forall k | k in s.sellers ensures s'.sellers[k].userId == s.sellers[k].userId {
    }
  }

  lemma ApprovalKeepsFlags(s: Store, s': Store, id: Id, t: SellerType)
    requires id in s.sellers && ApprovalApplied(s, s', id, t)
    requires TombstonesMatch(s) && ApprovedSellersTyped(s)
    ensures TombstonesMatch(s') && ApprovedSellersTyped(s')
  {
    forall k | k in s'.sellers && s'.sellers[k].isApproved ensures s'.sellers[k].sellerType.Some? {
      assert k in s.sellers;
    }
  }

  /** `product.updateMany({ where: { sellerId }, data: { productType } })`: every product
      of the seller, approved or not, deleted or not. */
  function RetypeProductsOf(ps: map<Id, Product>, sellerId: Id, t: SellerType): map<Id, Product>
  {
    map k | k in ps :: if ps[k].sellerId == sellerId then ps[k].(productType := Some(t)) else ps[k]
  }

  /** The declarative effect of retyping profile `id` as `t`: the profile and every one
      of its products carry the new type, and nothing else changes. */
  ghost predicate RetypeApplied(s: Store, s': Store, id: Id, t: SellerType)
    requires id in s.sellers
  {
    && s'.sellers.Keys == s.sellers.Keys
    && s'.sellers[id] == s.sellers[id].(sellerType := Some(t))
    && (forall k :: k in s.sellers && k != id ==> s'.sellers[k] == s.sellers[k])
    && s'.products.Keys == s.products.Keys
    && (forall k :: k in s.products && s.products[k].sellerId == id ==>
          s'.products[k] == s.products[k].(productType := Some(t)))
    && (forall k :: k in s.products && s.products[k].sellerId != id ==> s'.products[k] == s.products[k])
    && s'.users == s.users && s'.orders == s.orders && s'.categories == s.categories
  }

  /** `changeSellerType`: retypes the profile and all its products in one transaction and
      reports how many products it touched. Approval and deletion are not consulted. */
  function ChangeSellerType(s: Store, id: Id, sellerType: Option<string>): (r: Result<(Store, nat)>)
    ensures !NamesSellerType(sellerType) ==> r == Err(400, BadSellerType)
    ensures NamesSellerType(sellerType) && id !in s.sellers ==> r == Err(404, "Seller profile not found")
    ensures r.Ok? <==> NamesSellerType(sellerType) && id in s.sellers
    ensures r.Ok? ==>
      && RetypeApplied(s, r.value.0, id, ParseSellerType(sellerType.value).value)
      && r.value.1 == |set k | k in s.products && s.products[k].sellerId == id|
  {
    if !NamesSellerType(sellerType) then Err(400, BadSellerType)
    else if id !in s.sellers then Err(404, "Seller profile not found")
    else
      var t := ParseSellerType(sellerType.value).value;
      var s' := s.(sellers := s.sellers[id := s.sellers[id].(sellerType := Some(t))],
                   products := RetypeProductsOf(s.products, id, t));
      Ok((s', |set k | k in s.products && s.products[k].sellerId == id|))
  }

  /** After a retype every product of the seller mirrors the seller's type, and no
      product's approval, deletion or content other than its type has changed. */
  lemma RetypeKeepsProductsInSync(s: Store, id: Id, sellerType: Option<string>)
    requires ChangeSellerType(s, id, sellerType).Ok?
    ensures var s' := ChangeSellerType(s, id, sellerType).value.0;
      && (forall k :: k in s'.products && s'.products[k].sellerId == id ==>
            s'.products[k].productType == s'.sellers[id].sellerType)
      && (forall k :: k in s.products ==>
            && s'.products[k].isApproved == s.products[k].isApproved
            && s'.products[k].isDeleted == s.products[k].isDeleted
            && s'.products[k].name == s.products[k].name
            && s'.products[k].price == s.products[k].price)
      && s'.sellers[id].isApproved == s.sellers[id].isApproved
  {
  }

  lemma RetypePreservesWf(s: Store, id: Id, sellerType: Option<string>)
    requires Wf(s) && ChangeSellerType(s, id, sellerType).Ok?
    ensures Wf(ChangeSellerType(s, id, sellerType).value.0)
  {
    RetypeKeepsWf(s, ChangeSellerType(s, id, sellerType).value.0, id, ParseSellerType(sellerType.value).value);
  }

  lemma RetypeKeepsWf(s: Store, s': Store, id: Id, t: SellerType)
    requires Wf(s) && id in s.sellers && RetypeApplied(s, s', id, t)
    ensures Wf(s')
  {
    RetypeKeepsSkeleton(s, s', id, t);
    RetypeKeepsFlags(s, s', id, t);
    SkeletonKeepsWf(s, s');
  }

  lemma RetypeKeepsSkeleton(s: Store, s': Store, id: Id, t: SellerType)
    requires id in s.sellers && RetypeApplied(s, s', id, t)
    ensures SameSkeleton(s, s')
  {
    forall k | k in s.sellers ensures s'.sellers[k].userId == s.sellers[k].userId {
    }
    forall k | k in s.products
      ensures s'.products[k].sellerId == s.products[k].sellerId
      ensures s'.products[k].categoryId == s.products[k].categoryId
    {
    }
  }

  lemma RetypeKeepsFlags(s: Store, s': Store, id: Id, t: SellerType)
    requires id in s.sellers && RetypeApplied(s, s', id, t)
    requires TombstonesMatch(s) && ApprovedSellersTyped(s)
    ensures TombstonesMatch(s') && ApprovedSellersTyped(s')
  {
    forall k | k in s'.sellers && s'.sellers[k].isApproved ensures s'.sellers[k].sellerType.Some? {
      assert k in s.sellers;
    }
  }

  /** The declarative effect of removing seller profile `id` owned by user `uid`: the
      profile, all its products and its user are soft-deleted, and its active orders as
      seller are cancelled. Orders the user placed as a buyer are left alone. */
  ghost predicate RemovalApplied(s: Store, s': Store, id: Id, now: Time)
    requires id in s.sellers
  {
    var uid := s.sellers[id].userId;
    && s'.sellers.Keys == s.sellers.Keys
    && s'.sellers[id] == SoftDeletedProfile(s.sellers[id], now)
    && (forall k :: k in s.sellers && k != id ==> s'.sellers[k] == s.sellers[k])
    && s'.products.Keys == s.products.Keys
    && (forall k :: k in s.products ==>
          s'.products[k] ==
            if s.products[k].sellerId == id then SoftDeletedProduct(s.products[k], now) else s.products[k])
    && s'.orders.Keys == s.orders.Keys
    && (forall k :: k in s.orders ==>
          s'.orders[k] ==
            if s.orders[k].sellerId == id && IsActive(s.orders[k].status)
            then CancelledOrder(s.orders[k]) else s.orders[k])
    && s'.users.Keys == s.users.Keys
    && uid in s.users
    && s'.users[uid] == SoftDeletedUser(s.users[uid], now)
    && (forall k :: k in s.users && k != uid ==> s'.users[k] == s.users[k])
    && s'.categories == s.categories
  }

  /** `removeSeller`: no guard beyond existence, so an already removed seller is removed
      again (with a new timestamp), and the owning user is deleted whatever their role. */
  function RemoveSeller(s: Store, id: Id, now: Time): (r: Result<Store>)
    ensures id !in s.sellers ==> r == Err(404, "Seller profile not found")
    ensures r.Ok? <==> id in s.sellers && s.sellers[id].userId in s.users
    ensures r.Ok? ==> RemovalApplied(s, r.value, id, now)
  {
    if id !in s.sellers then Err(404, "Seller profile not found")
    else
      var p := s.sellers[id];
      if p.userId !in s.users then Err(InternalError, InternalMessage)
      else
        Ok(s.(sellers := s.sellers[id := SoftDeletedProfile(p, now)],
              products := SoftDeleteProductsOf(s.products, id, now),
              orders := CancelActiveOrdersOf(s.orders, AsSeller(id)),
              users := s.users[p.userId := SoftDeletedUser(s.users[p.userId], now)]))
  }

  lemma RemovePreservesWf(s: Store, id: Id, now: Time)
    requires Wf(s) && RemoveSeller(s, id, now).Ok?
    ensures Wf(RemoveSeller(s, id, now).value)
  {
    var s' := RemoveSeller(s, id, now).value;
    RemovalKeepsSkeleton(s, s', id, now);
    RemovalKeepsFlags(s, s', id, now);
    SkeletonKeepsWf(s, s');
  }

  lemma RemovalKeepsSkeleton(s: Store, s': Store, id: Id, now: Time)
    requires id in s.sellers && RemovalApplied(s, s', id, now)
    ensures SameSkeleton(s, s')
  {
    forall k | k in s.users ensures s'.users[k].email == s.users[k].email {
    }
    forall k | k in s.sellers ensures s'.sellers[k].userId == s.sellers[k].userId {
    }
    forall k | k in s.products
      ensures s'.products[k].sellerId == s.products[k].sellerId
      ensures s'.products[k].categoryId == s.products[k].categoryId
    {
    }
    forall k | k in s.orders ensures SameOrderDetails(s.orders[k], s'.orders[k]) {
    }
  }

  lemma RemovalKeepsFlags(s: Store, s': Store, id: Id, now: Time)
    requires id in s.sellers && RemovalApplied(s, s', id, now)
    requires TombstonesMatch(s) && ApprovedSellersTyped(s)
    ensures TombstonesMatch(s') && ApprovedSellersTyped(s')
  {
    forall k | k in s'.sellers && s'.sellers[k].isApproved ensures s'.sellers[k].sellerType.Some? {
      assert k in s.sellers;
    }
    forall k | k in s'.orders ensures s'.orders[k].isCancelled <==> s'.orders[k].status == Cancelled {
      assert k in s.orders;
    }
  }

  /** A seller's user who bought from another seller keeps that order through
      `removeSeller`, while `banUser` on the same user cancels it: the removal cascades
      only over the profile's sales, the ban over the user's purchases too. */
  lemma RemovalSparesPurchasesUnlikeBan(s: Store, id: Id, k: Id, now: Time)
    requires id in s.sellers && s.sellers[id].userId in s.users
    requires !s.users[s.sellers[id].userId].isSuperAdmin && !s.users[s.sellers[id].userId].isDeleted
    requires k in s.orders && s.orders[k].buyerId == s.sellers[id].userId && s.orders[k].sellerId != id
    requires IsActive(s.orders[k].status)
    ensures RemoveSeller(s, id, now).Ok? && AdminUserController.BanUser(s, s.sellers[id].userId, now).Ok?
    ensures RemoveSeller(s, id, now).value.orders[k] == s.orders[k]
    ensures AdminUserController.BanUser(s, s.sellers[id].userId, now).value.orders[k] == CancelledOrder(s.orders[k])
  {
    assert RemovalApplied(s, RemoveSeller(s, id, now).value, id, now);
    var uid := s.sellers[id].userId;
    assert AdminUserController.BanApplied(s, AdminUserController.BanUser(s, uid, now).value, uid, now);
  }

  /** Nothing in `removeSeller` protects a super-admin who owns a seller profile: the
      removal soft-deletes them. */
  lemma RemovalReachesSuperAdmin(s: Store, id: Id, now: Time)
    requires id in s.sellers && s.sellers[id].userId in s.users && s.users[s.sellers[id].userId].isSuperAdmin
    ensures RemoveSeller(s, id, now).Ok?
    ensures RemoveSeller(s, id, now).value.users[s.sellers[id].userId].isDeleted
  {
  }
}

=== FILE: admin_user_controller.dfy ===
/** Administration of users: the ban cascade, adding and removing admins, and the
    user list. */
module AdminUserController {
  import opened Constants
  import opened Outcomes
  import opened Entities
  import opened Validation
  import opened Pagination

  /** The declarative effect of banning user `id`: the user, their seller profile (if
      any) and all of its products are soft-deleted, and every active order in which the
      user is the buyer or their profile is the seller is cancelled. Nothing else moves. */
  ghost predicate BanApplied(s: Store, s': Store, id: Id, now: Time)
    requires id in s.users
  {
    var profile := ProfileOf(s, id);
    && s'.users.Keys == s.users.Keys
    && s'.users[id] == SoftDeletedUser(s.users[id], now)
    && (forall k :: k in s.users && k != id ==> s'.users[k] == s.users[k])
    && s'.sellers.Keys == s.sellers.Keys
    && (forall k :: k in s.sellers ==>
          s'.sellers[k] == if profile == Some(k) then SoftDeletedProfile(s.sellers[k], now) else s.sellers[k])
    && s'.products.Keys == s.products.Keys
    && (forall k :: k in s.products ==>
          s'.products[k] ==
            if profile.Some? && s.products[k].sellerId == profile.value
            then SoftDeletedProduct(s.products[k], now) else s.products[k])
    && s'.orders.Keys == s.orders.Keys
    && (forall k :: k in s.orders ==>
          s'.orders[k] ==
            if IsActive(s.orders[k].status)
               && (s.orders[k].buyerId == id || (profile.Some? && s.orders[k].sellerId == profile.value))
            then CancelledOrder(s.orders[k]) else s.orders[k])
    && s'.categories == s.categories
  }

  /** `banUser`: the guards run first and change nothing; then every write of the
      cascade is applied in one transaction. */
  function BanUser(s: Store, id: Id, now: Time): (r: Result<Store>)
    ensures id !in s.users ==> r == Err(404, "User not found")
    ensures id in s.users && s.users[id].isSuperAdmin ==> r == Err(403, "Cannot ban super admin")
    ensures id in s.users && !s.users[id].isSuperAdmin && s.users[id].isDeleted ==>
      r == Err(400, "User is already banned")
    ensures r.Ok? <==> id in s.users && !s.users[id].isSuperAdmin && !s.users[id].isDeleted
    ensures r.Ok? ==> BanApplied(s, r.value, id, now)
  {
    if id !in s.users then Err(404, "User not found")
    else
      var u := s.users[id];
      if u.isSuperAdmin then Err(403, "Cannot ban super admin")
      else if u.isDeleted then Err(400, "User is already banned")
      else
        var s1 := s.(users := s.users[id := SoftDeletedUser(u, now)]);
        var s2 := match ProfileOf(s, id)
          case Some(pid) =>
            s1.(sellers := s1.sellers[pid := SoftDeletedProfile(s1.sellers[pid], now)],
                products := SoftDeleteProductsOf(s1.products, pid, now),
                orders := CancelActiveOrdersOf(s1.orders, AsSeller(pid)))
          case None => s1;
        Ok(s2.(orders := CancelActiveOrdersOf(s2.orders, AsBuyer(id))))
  }

  /** After a ban no order the user takes part in, on either side, is still active,
      and delivered or already cancelled orders are as they were. */
  lemma BanLeavesNoActiveOrder(s: Store, id: Id, now: Time)
    requires BanUser(s, id, now).Ok?
    ensures var s' := BanUser(s, id, now).value;
      && (forall k :: k in s'.orders && s'.orders[k].buyerId == id ==> !IsActive(s'.orders[k].status))
      && (forall k :: k in s'.orders && ProfileOf(s, id) == Some(s'.orders[k].sellerId) ==>
            !IsActive(s'.orders[k].status))
      && (forall k :: k in s.orders && !IsActive(s.orders[k].status) ==> s'.orders[k] == s.orders[k])
  {
    var s' := BanUser(s, id, now).value;
    forall k | k in s'.orders && s'.orders[k].buyerId == id
      ensures !IsActive(s'.orders[k].status)
    {
      assert k in s.orders;
    }
    forall k | k in s'.orders && ProfileOf(s, id) == Some(s'.orders[k].sellerId)
      ensures !IsActive(s'.orders[k].status)
    {
      assert k in s.orders;
    }
  }

  /** Banning twice is refused the second time and changes nothing more. */
  lemma BanTwiceRefused(s: Store, id: Id, t1: Time, t2: Time)
    requires BanUser(s, id, t1).Ok?
    ensures BanUser(BanUser(s, id, t1).value, id, t2) == Err(400, "User is already banned")
  {
  }

  /** A ban keeps the store consistent. */
  lemma BanPreservesWf(s: Store, id: Id, now: Time)
    requires Wf(s) && BanUser(s, id, now).Ok?
    ensures Wf(BanUser(s, id, now).value)
  {
    BanAppliedKeepsWf(s, BanUser(s, id, now).value, id, now);
  }

  lemma BanAppliedKeepsWf(s: Store, s': Store, id: Id, now: Time)
    requires Wf(s) && id in s.users && BanApplied(s, s', id, now)
    ensures Wf(s')
  {
    BanKeepsSkeleton(s, s', id, now);
    BanKeepsFlags(s, s', id, now);
    SkeletonKeepsWf(s, s');
  }

  lemma BanKeepsSkeleton(s: Store, s': Store, id: Id, now: Time)
    requires id in s.users && BanApplied(s, s', id, now)
    ensures SameSkeleton(s, s')
  {
    forall k | k in s.users ensures s'.users[k].email == s.users[k].email {
    }
    forall k | k in s.sellers ensures s'.sellers[k].userId == s.sellers[k].userId {
    }
    forall k | k in s.products
      ensures s'.products[k].sellerId == s.products[k].sellerId
      ensures s'.products[k].categoryId == s.products[k].categoryId
    {
    }
    forall k | k in s.orders ensures SameOrderDetails(s.orders[k], s'.orders[k]) {
    }
  }

  lemma BanKeepsFlags(s: Store, s': Store, id: Id, now: Time)
    requires id in s.users && BanApplied(s, s', id, now)
    requires TombstonesMatch(s) && ApprovedSellersTyped(s)
    ensures TombstonesMatch(s') && ApprovedSellersTyped(s')
  {
    forall k | k in s'.sellers && s'.sellers[k].isApproved ensures s'.sellers[k].sellerType.Some? {
      assert k in s.sellers;
    }
    forall k | k in s'.orders ensures s'.orders[k].isCancelled <==> s'.orders[k].status == Cancelled {
      assert k in s.orders;
    }
  }

  /** `removeAdmin`: soft-deletes a non-super admin, and nothing else. There is no
      guard against removing an admin already removed. */
  function RemoveAdmin(s: Store, id: Id, now: Time): (r: Result<Store>)
    ensures id !in s.users ==> r == Err(404, "User not found")
    ensures id in s.users && s.users[id].role != Admin ==> r == Err(400, "User is not an admin")
    ensures id in s.users && s.users[id].role == Admin && s.users[id].isSuperAdmin ==>
      r == Err(403, "Cannot remove super admin")
    ensures r.Ok? <==> id in s.users && s.users[id].role == Admin && !s.users[id].isSuperAdmin
    ensures r.Ok? ==>
      && OnlyUserChanged(s, r.value, id)
      && r.value.users[id] == SoftDeletedUser(s.users[id], now)
  {
    if id !in s.users then Err(404, "User not found")
    else
      var u := s.users[id];
      if u.role != Admin then Err(400, "User is not an admin")
      else if u.isSuperAdmin then Err(403, "Cannot remove super admin")
      else Ok(s.(users := s.users[id := SoftDeletedUser(u, now)]))
  }

  /** `addAdmin`: creates an ordinary admin unless the email is taken by any user,
      deleted or not. `hash` is the password hashing function. */
  function AddAdmin(s: Store, input: AccountInput, hash: string -> string, newId: Id): (r: Result<(Store, Id)>)
    requires newId !in s.users
    ensures r.Err? <==> exists k :: k in s.users && s.users[k].email == input.email
    ensures r.Err? ==> r == Err(400, "Email already registered")
    ensures r.Ok? ==>
      var (s', id) := r.value;
      && id == newId
      && s'.users.Keys == s.users.Keys + {newId}
      && (forall k :: k in s.users ==> s'.users[k] == s.users[k])
      && s'.sellers == s.sellers && s'.products == s.products
      && s'.orders == s.orders && s'.categories == s.categories
      && s'.users[id].role == Admin && !s'.users[id].isSuperAdmin && !s'.users[id].isDeleted
      && s'.users[id].email == input.email && s'.users[id].password == hash(input.password)
      && s'.users[id].fullName == input.fullName && s'.users[id].phoneNumber == input.phoneNumber
      && s'.users[id].address == input.address && s'.users[id].deletedAt.None?
  {
    if UserByEmail(s, input.email).Some? then Err(400, "Email already registered")
    else
      var admin := User(input.email, hash(input.password), input.fullName, input.phoneNumber,
                        input.address, Admin, false, false, None);
      Ok((s.(users := s.users[newId := admin]), newId))
  }

  /** Adding an admin keeps emails unique and the store consistent. */
  lemma AddAdminPreservesWf(s: Store, input: AccountInput, hash: string -> string, newId: Id)
    requires Wf(s) && newId !in s.users && AddAdmin(s, input, hash, newId).Ok?
    ensures Wf(AddAdmin(s, input, hash, newId).value.0)
  {
  }

  /** The role filter of the user list: applied only for a known role name. */
  predicate MatchesRoleFilter(u: User, role: Option<string>)
  {
    role.None? || ParseRole(role.value).None? || u.role == ParseRole(role.value).value
  }

  /** The users a listing matches, with the pagination block over their count. The rows
      of one page are a `createdAt`-ordered window of `users`. */
  datatype UserListing = UserListing(users: map<Id, UserInfo>, pagination: Page)

  /** `getAllUsers`: non-deleted users, of one role when a known role name is given. */
  function GetAllUsers(s: Store, role: Option<string>, page: int, limit: int): (r: UserListing)
    requires page >= 1 && limit > 0
    ensures forall k :: k in r.users <==> k in s.users && !s.users[k].isDeleted && MatchesRoleFilter(s.users[k], role)
    ensures forall k :: k in r.users ==> r.users[k] == InfoOf(k, s.users[k])
    ensures r.pagination.total == |r.users|
    ensures r.pagination.totalPages == CeilDiv(|r.users|, limit)
  {
    var users := map k | k in s.users && !s.users[k].isDeleted && MatchesRoleFilter(s.users[k], role)
      :: InfoOf(k, s.users[k]);
    UserListing(users, Paginate(|users|, page, limit))
  }

  /** Soft-deleting one user and leaving every other user row alone takes exactly that
      user out of a listing. */
  lemma HidingOneUser(s: Store, s': Store, id: Id, role: Option<string>, page: int, limit: int)
    requires page >= 1 && limit > 0
    requires s'.users.Keys == s.users.Keys && id in s'.users && s'.users[id].isDeleted
    requires forall k :: k in s.users && k != id ==> s'.users[k] == s.users[k]
    ensures var before := GetAllUsers(s, role, page, limit).users;
      var after := GetAllUsers(s', role, page, limit).users;
      && after.Keys == before.Keys - {id}
      && (forall k :: k in after ==> after[k] == before[k])
  {
    var before := GetAllUsers(s, role, page, limit).users;
    var after := GetAllUsers(s', role, page, limit).users;
    forall k
      ensures k in after <==> k in before && k != id
    {
      if k != id && k in s.users {
        assert s'.users[k] == s.users[k];
      }
    }
  }

  /** A banned user leaves every user listing, and every other listed user stays as listed. */
  lemma BanHidesUser(s: Store, id: Id, now: Time, role: Option<string>, page: int, limit: int)
    requires page >= 1 && limit > 0 && BanUser(s, id, now).Ok?
    ensures var before := GetAllUsers(s, role, page, limit).users;
      var after := GetAllUsers(BanUser(s, id, now).value, role, page, limit).users;
      && after.Keys == before.Keys - {id}
      && (forall k :: k in after ==> after[k] == before[k])
  {
    var s' := BanUser(s, id, now).value;
    assert BanApplied(s, s', id, now);
    HidingOneUser(s, s', id, role, page, limit);
  }

  /** A removed admin leaves every user listing, and every other listed user stays as listed. */
  lemma RemoveAdminHidesUser(s: Store, id: Id, now: Time, role: Option<string>, page: int, limit: int)
    requires page >= 1 && limit > 0 && RemoveAdmin(s, id, now).Ok?
    ensures var before := GetAllUsers(s, role, page, limit).users;
      var after := GetAllUsers(RemoveAdmin(s, id, now).value, role, page, limit).users;
      && after.Keys == before.Keys - {id}
      && (forall k :: k in after ==> after[k] == before[k])
  {
    HidingOneUser(s, RemoveAdmin(s, id, now).value, id, role, page, limit);
  }

  /** A new admin appears in the admin listing and in the unfiltered one. */
  lemma AddedAdminIsListed(s: Store, input: AccountInput, hash: string -> string, newId: Id, page: int, limit: int)
    requires page >= 1 && limit > 0 && newId !in s.users && AddAdmin(s, input, hash, newId).Ok?
    ensures newId in GetAllUsers(AddAdmin(s, input, hash, newId).value.0, Some("ADMIN"), page, limit).users
    ensures newId in GetAllUsers(AddAdmin(s, input, hash, newId).value.0, None, page, limit).users
  {
  }

  /** The three role listings split the unfiltered one: each listed user is in exactly one
      of them, and their counts add up to its count. */
  lemma RoleListingsPartition(s: Store, page: int, limit: int)
    requires page >= 1 && limit > 0
    ensures var all := GetAllUsers(s, None, page, limit).users;
      var b := GetAllUsers(s, Some("BUYER"), page, limit).users;
      var se := GetAllUsers(s, Some("SELLER"), page, limit).users;
      var a := GetAllUsers(s, Some("ADMIN"), page, limit).users;
      && (forall k :: k in all <==> k in b || k in se || k in a)
      && (forall k :: !(k in b && k in se) && !(k in b && k in a) && !(k in se && k in a))
      && |b| + |se| + |a| == |all|
  {
    var all := GetAllUsers(s, None, page, limit).users;
    var b := GetAllUsers(s, Some("BUYER"), page, limit).users;
    var se := GetAllUsers(s, Some("SELLER"), page, limit).users;
    var a := GetAllUsers(s, Some("ADMIN"), page, limit).users;
    forall k
      ensures k in all <==> k in b || k in se || k in a
      ensures !(k in b && k in se) && !(k in b && k in a) && !(k in se && k in a)
    {
      if k in s.users {
        OneRoleFilterMatches(s.users[k]);
      }
    }
    ThreeWaySplit(all.Keys, b.Keys, se.Keys, a.Keys);
  }

  /** A user passes the unfiltered listing and exactly the role filter naming its role. */
  lemma OneRoleFilterMatches(u: User)
    ensures MatchesRoleFilter(u, None)
    ensures MatchesRoleFilter(u, Some("BUYER")) <==> u.role == Buyer
    ensures MatchesRoleFilter(u, Some("SELLER")) <==> u.role == Seller
    ensures MatchesRoleFilter(u, Some("ADMIN")) <==> u.role == Admin
  {
    assert ParseRole("BUYER") == Some(Buyer) && ParseRole("SELLER") == Some(Seller) && ParseRole("ADMIN") == Some(Admin);
  }

  lemma ThreeWaySplit<T>(all: set<T>, b: set<T>, se: set<T>, a: set<T>)
    requires forall k :: k in all <==> k in b || k in se || k in a
    requires forall k :: !(k in b && k in se) && !(k in b && k in a) && !(k in se && k in a)
    ensures |b| + |se| + |a| == |all|
  {
    assert all == b + se + a;
    assert b * se == {} && (b + se) * a == {};
    assert |b + se| == |b| + |se|;
  }
}

=== FILE: analytics.dfy ===
/** The admin dashboard figures: counts of users by role, of products by approval,
    of orders by status, and of categories. */
module Analytics {
  import opened Constants
  import opened Entities
  import AdminProductController

  datatype UserCounts = UserCounts(total: nat, buyers: nat, sellers: nat, admins: nat)
  datatype ProductCounts = ProductCounts(total: nat, approved: nat, pending: nat)
  datatype OrderCounts = OrderCounts(total: nat, pending: nat, completed: nat)
  datatype Figures = Figures(users: UserCounts, products: ProductCounts, orders: OrderCounts, categories: nat)

  function LiveUsers(s: Store): set<Id>
  {
    set k | k in s.users && !s.users[k].isDeleted
  }

  function LiveUsersWithRole(s: Store, role: Role): set<Id>
  {
    set k | k in s.users && !s.users[k].isDeleted && s.users[k].role == role
  }

  function LiveProducts(s: Store, approved: bool): set<Id>
  {
    set k | k in s.products && !s.products[k].isDeleted && s.products[k].isApproved == approved
  }

  function OrdersWithStatus(s: Store, st: OrderStatus): set<Id>
  {
    set k | k in s.orders && s.orders[k].status == st
  }

  /** `getAnalytics`: users and products exclude deleted rows, orders and categories do
      not. Roles and approval split the live rows exactly; pending and delivered orders
      are two disjoint parts of all orders. */
  function GetAnalytics(s: Store): (r: Figures)
    ensures r.users.total == |LiveUsers(s)|
    ensures r.users.buyers == |LiveUsersWithRole(s, Buyer)| && r.users.sellers == |LiveUsersWithRole(s, Seller)|
    ensures r.users.admins == |LiveUsersWithRole(s, Admin)|
    ensures r.products.total == |set k | k in s.products && !s.products[k].isDeleted|
    ensures r.products.approved == |LiveProducts(s, true)|
    ensures r.orders.pending == |OrdersWithStatus(s, Pending)| && r.orders.completed == |OrdersWithStatus(s, Delivered)|
    ensures r.users.buyers + r.users.sellers + r.users.admins == r.users.total
    ensures r.products.approved + r.products.pending == r.products.total
    ensures r.orders.pending + r.orders.completed <= r.orders.total
    ensures r.orders.total == |s.orders| && r.categories == |s.categories|
    ensures r.products.pending == |AdminProductController.GetPendingProducts(s)|
  {
    var live := set k | k in s.products && !s.products[k].isDeleted;
    UsersSplitByRole(s);
    ProductsSplitByApproval(s);
    PendingIsTheQueue(s);
    OrderStatusesDisjoint(s);
    Figures(
      UserCounts(|LiveUsers(s)|, |LiveUsersWithRole(s, Buyer)|, |LiveUsersWithRole(s, Seller)|,
                 |LiveUsersWithRole(s, Admin)|),
      ProductCounts(|live|, |LiveProducts(s, true)|, |LiveProducts(s, false)|),
      OrderCounts(|s.orders|, |OrdersWithStatus(s, Pending)|, |OrdersWithStatus(s, Delivered)|),
      |s.categories|)
  }

  /** Approving a queued product moves exactly one product from the pending figure to
      the approved one; every other figure stays as it was. */
  lemma ApprovalMovesOneProduct(s: Store, id: Id)
    requires id in AdminProductController.GetPendingProducts(s)
    ensures AdminProductController.ApproveProduct(s, id).Ok?
    ensures var before := GetAnalytics(s);
      var after := GetAnalytics(AdminProductController.ApproveProduct(s, id).value.0);
      && after.products.approved == before.products.approved + 1
      && after.products.pending + 1 == before.products.pending
      && after.products.total == before.products.total
      && after.users == before.users && after.orders == before.orders && after.categories == before.categories
  {
    var s' := AdminProductController.ApproveProduct(s, id).value.0;
    assert LiveProducts(s', true) == LiveProducts(s, true) + {id};
    assert id !in LiveProducts(s, true);
    assert LiveProducts(s', false) == LiveProducts(s, false) - {id};
    assert id in LiveProducts(s, false);
    assert (set k | k in s'.products && !s'.products[k].isDeleted) == (set k | k in s.products && !s.products[k].isDeleted);
    assert LiveUsers(s') == LiveUsers(s);
    assert forall role :: LiveUsersWithRole(s', role) == LiveUsersWithRole(s, role);
    assert forall st :: OrdersWithStatus(s', st) == OrdersWithStatus(s, st);
  }

  lemma UsersSplitByRole(s: Store)
    ensures |LiveUsersWithRole(s, Buyer)| + |LiveUsersWithRole(s, Seller)| + |LiveUsersWithRole(s, Admin)|
      == |LiveUsers(s)|
  {
    var b, se, a := LiveUsersWithRole(s, Buyer), LiveUsersWithRole(s, Seller), LiveUsersWithRole(s, Admin);
    assert LiveUsers(s) == b + se + a;
    assert b * se == {} && (b + se) * a == {};
    assert |b + se| == |b| + |se|;
  }

  lemma ProductsSplitByApproval(s: Store)
    ensures |LiveProducts(s, true)| + |LiveProducts(s, false)| ==
      |set k | k in s.products && !s.products[k].isDeleted|
  {
    var live := set k | k in s.products && !s.products[k].isDeleted;
    assert live == LiveProducts(s, true) + LiveProducts(s, false);
    assert LiveProducts(s, true) * LiveProducts(s, false) == {};
  }

  lemma PendingIsTheQueue(s: Store)
    ensures |LiveProducts(s, false)| == |AdminProductController.GetPendingProducts(s)|
  {
    assert AdminProductController.GetPendingProducts(s).Keys == LiveProducts(s, false);
  }

  lemma OrderStatusesDisjoint(s: Store)
    ensures |OrdersWithStatus(s, Pending)| + |OrdersWithStatus(s, Delivered)| <= |s.orders|
  {
    var p, d := OrdersWithStatus(s, Pending), OrdersWithStatus(s, Delivered);
    assert p * d == {};
    assert p + d <= s.orders.Keys;
    assert |p + d| == |p| + |d|;
    SubsetNoLarger(p + d, s.orders.Keys);
  }

  lemma {:induction false} SubsetNoLarger(a: set<Id>, b: set<Id>)
    requires a <= b
    ensures |a| <= |b|
    decreases |b|
  {
    if b != {} {
      var x :| x in b;
      SubsetNoLarger(a - {x}, b - {x});
    }
  }
}

=== FILE: auth_controller.dfy ===
/** Account handlers: registration, login with its deactivation check, and the
    caller's own record. Password hashing, comparison and token signing are oracles. */
module AuthController {
  import opened Constants
  import opened Outcomes
  import opened Entities
  import opened Validation
  import AuthMiddleware

  /** `register`: a new BUYER account for an email no user holds, deleted or not. `hash`
      is the password hashing function. The response leaves out the password hash. */
  function Register(s: Store, input: AccountInput, hash: string -> string, newId: Id): (r: Result<(Store, UserInfo)>)
    requires newId !in s.users
    ensures r.Err? <==> exists k :: k in s.users && s.users[k].email == input.email
    ensures r.Err? ==> r == Err(400, "Email already registered")
    ensures r.Ok? ==>
      var (s', info) := r.value;
      && s'.users.Keys == s.users.Keys + {newId}
      && (forall k :: k in s.users ==> s'.users[k] == s.users[k])
      && s'.sellers == s.sellers && s'.products == s.products
      && s'.orders == s.orders && s'.categories == s.categories
      && s'.users[newId].role == Buyer && !s'.users[newId].isSuperAdmin && !s'.users[newId].isDeleted
      && s'.users[newId].email == input.email && s'.users[newId].password == hash(input.password)
      && s'.users[newId].fullName == input.fullName && s'.users[newId].phoneNumber == input.phoneNumber
      && s'.users[newId].address == input.address && s'.users[newId].deletedAt.None?
      && info == InfoOf(newId, s'.users[newId])
  {
    if UserByEmail(s, input.email).Some? then Err(400, "Email already registered")
    else
      var u := User(input.email, hash(input.password), input.fullName, input.phoneNumber,
                    input.address, Buyer, false, false, None);
      Ok((s.(users := s.users[newId := u]), InfoOf(newId, u)))
  }

  /** Registration keeps emails unique, and the same email cannot register twice. */
  lemma RegisterKeepsEmailsUnique(s: Store, input: AccountInput, hash: string -> string, newId: Id, again: Id)
    requires newId !in s.users && UniqueEmails(s) && Register(s, input, hash, newId).Ok?
    requires again !in Register(s, input, hash, newId).value.0.users
    ensures UniqueEmails(Register(s, input, hash, newId).value.0)
    ensures Register(Register(s, input, hash, newId).value.0, input, hash, again) == Err(400, "Email already registered")
  {
    var s' := Register(s, input, hash, newId).value.0;
    assert s'.users[newId].email == input.email;
  }

  /** The claims a login token carries. */
  datatype Claims = Claims(userId: Id, email: string, role: Role, isSuperAdmin: bool)

  datatype Session = Session(user: UserInfo, token: string)

  const BadCredentials: string := "Invalid email or password"

  /** `login`: an unknown email and a wrong password are refused alike; a deactivated
      account is refused before its password is compared. `matches(plain, hash)` is the
      password comparison and `sign` the token signer. */
  function Login(s: Store, input: LoginInput, matches: (string, string) -> bool, sign: Claims -> string)
    : (r: Result<Session>)
    ensures UserByEmail(s, input.email).None? ==> r == Err(401, BadCredentials)
    ensures UserByEmail(s, input.email).Some? && s.users[UserByEmail(s, input.email).value].isDeleted ==>
      r == Err(403, "Account has been deactivated")
    ensures r.Ok? <==>
      && UserByEmail(s, input.email).Some?
      && !s.users[UserByEmail(s, input.email).value].isDeleted
      && matches(input.password, s.users[UserByEmail(s, input.email).value].password)
    ensures r.Err? ==> r == Err(401, BadCredentials) || r == Err(403, "Account has been deactivated")
    ensures r.Ok? ==>
      var id := UserByEmail(s, input.email).value;
      var u := s.users[id];
      && r.value.user == InfoOf(id, u)
      && r.value.token == sign(Claims(id, u.email, u.role, u.isSuperAdmin))
  {
    var found := UserByEmail(s, input.email);
    if found.None? then Err(401, BadCredentials)
    else
      var id := found.value;
      var u := s.users[id];
      if u.isDeleted then Err(403, "Account has been deactivated")
      else if !matches(input.password, u.password) then Err(401, BadCredentials)
      else Ok(Session(InfoOf(id, u), sign(Claims(id, u.email, u.role, u.isSuperAdmin))))
  }

  /** A caller cannot tell an unknown email from a wrong password, and a deactivated
      account answers the same whatever password is given. */
  lemma LoginDoesNotLeakAccounts(s: Store, email: string, password: string, other: string,
                                 matches: (string, string) -> bool, sign: Claims -> string)
    requires UserByEmail(s, email).Some? && !s.users[UserByEmail(s, email).value].isDeleted
    requires !matches(password, s.users[UserByEmail(s, email).value].password)
    requires UserByEmail(s, other).None?
    ensures Login(s, LoginInput(email, password), matches, sign) == Login(s, LoginInput(other, password), matches, sign)
  {
  }

  lemma DeactivationDecidesFirst(s: Store, email: string, p1: string, p2: string,
                                 matches: (string, string) -> bool, sign: Claims -> string)
    requires UserByEmail(s, email).Some? && s.users[UserByEmail(s, email).value].isDeleted
    ensures Login(s, LoginInput(email, p1), matches, sign) == Login(s, LoginInput(email, p2), matches, sign)
  {
  }

  /** A token handed out by a login authenticates as the same user, provided the verifier
      accepts what the signer produces and the token has no space in it. */
  lemma LoginTokenAuthenticates(s: Store, input: LoginInput, matches: (string, string) -> bool,
                                sign: Claims -> string, verify: string -> AuthMiddleware.TokenCheck)
    requires Login(s, input, matches, sign).Ok?
    requires forall c :: verify(sign(c)) == AuthMiddleware.Valid(c.userId)
    requires ' ' !in Login(s, input, matches, sign).value.token
    ensures var session := Login(s, input, matches, sign).value;
      var a := AuthMiddleware.Authenticate(s, Some(AuthMiddleware.Scheme + session.token), verify);
      && a.Ok?
      && a.value.userId == session.user.id
      && a.value.role == session.user.role
  {
    var token := Login(s, input, matches, sign).value.token;
    AuthMiddleware.BearerTokenRoundTrip(token);
  }

  /** `getMe`: the caller's record without the password. Its `isDeleted` test reads a
      field the query does not select, so a deleted caller's record is still returned. */
  function GetMe(s: Store, actor: Actor): (r: Result<UserInfo>)
    ensures r.Ok? <==> actor.userId in s.users
    ensures r.Ok? ==> r.value == InfoOf(actor.userId, s.users[actor.userId])
    ensures r.Err? ==> r == Err(404, "User not found")
  {
    if actor.userId !in s.users then Err(404, "User not found")
    else Ok(InfoOf(actor.userId, s.users[actor.userId]))
  }
}

=== FILE: auth_middleware.dfy ===
/** The request guards that run before the handlers: bearer-token authentication,
    the role and super-admin checks, and the approved-seller check. */
module AuthMiddleware {
  import opened Constants
  import opened Outcomes
  import opened Entities
  import opened Strings

  /** What token verification reports: the user id in a valid token's payload, or the
      failure `jwt.verify` raises. Signing and verification are outside this model. */
  datatype TokenCheck = Valid(userId: Id) | Malformed | Expired

  const Scheme: string := "Bearer "

  /** The token of an `Authorization` header: the second space-separated field of a
      header that starts with "Bearer ". */
  function BearerToken(header: Option<string>): (r: Option<string>)
    ensures r.Some? <==> header.Some? && StartsWith(header.value, Scheme)
  {
    if header.None? || !StartsWith(header.value, Scheme) then None
    else
      var h := header.value;
      BearerSplits(h);
      Some(Split(h, ' ')[1])
  }

  /** A header that starts with "Bearer " has at least two space-separated fields, the
      first being "Bearer". */
  lemma BearerSplits(h: string)
    requires StartsWith(h, Scheme)
    ensures |Split(h, ' ')| >= 2 && Split(h, ' ')[0] == "Bearer"
    ensures Split(h, ' ')[1..] == Split(h[|Scheme|..], ' ')
  {
    assert h == "Bearer" + [' '] + h[|Scheme|..];
    SplitAfterPiece("Bearer", h[|Scheme|..], ' ');
  }

  /** A token without spaces travels intact through "Bearer <token>". */
  lemma BearerTokenRoundTrip(token: string)
    requires ' ' !in token
    ensures BearerToken(Some(Scheme + token)) == Some(token)
  {
    var h := Scheme + token;
    assert StartsWith(h, Scheme);
    BearerSplits(h);
    assert h[|Scheme|..] == token;
    SplitWithoutSeparator(token, ' ');
  }

  /** `authenticate`: resolves the header's token to a live user and attaches that user's
      identity to the request. `verify` is the token verifier. */
  function Authenticate(s: Store, header: Option<string>, verify: string -> TokenCheck): (r: Result<Actor>)
    ensures BearerToken(header).None? ==> r == Err(401, "No token provided")
    ensures BearerToken(header).Some? && verify(BearerToken(header).value).Malformed? ==>
      r == Err(401, "Invalid token")
    ensures BearerToken(header).Some? && verify(BearerToken(header).value).Expired? ==>
      r == Err(401, "Token expired")
    ensures r.Ok? <==>
      && BearerToken(header).Some? && verify(BearerToken(header).value).Valid?
      && verify(BearerToken(header).value).userId in s.users
      && !s.users[verify(BearerToken(header).value).userId].isDeleted
    ensures r.Err? ==> r.code == 401
    ensures r.Ok? ==>
      var uid := verify(BearerToken(header).value).userId;
      var u := s.users[uid];
      r.value == Actor(uid, u.email, u.fullName, u.role, u.isSuperAdmin)
  {
    var token := BearerToken(header);
    if token.None? then Err(401, "No token provided")
    else
      match verify(token.value)
      case Malformed => Err(401, "Invalid token")
      case Expired => Err(401, "Token expired")
      case Valid(uid) =>
        if uid !in s.users || s.users[uid].isDeleted then Err(401, "User not found or deactivated")
        else
          var u := s.users[uid];
          Ok(Actor(uid, u.email, u.fullName, u.role, u.isSuperAdmin))
  }

  /** `requireRole(roles)`. */
  function RequireRole(actor: Actor, roles: seq<Role>): (r: Result<Actor>)
    ensures r.Ok? <==> actor.role in roles
    ensures r.Ok? ==> r.value == actor
    ensures r.Err? ==> r == Err(403, "Insufficient permissions")
  {
    if actor.role !in roles then Err(403, "Insufficient permissions") else Ok(actor)
  }

  /** `requireSuperAdmin`. */
  function RequireSuperAdmin(actor: Actor): (r: Result<Actor>)
    ensures r.Ok? <==> actor.isSuperAdmin
    ensures r.Ok? ==> r.value == actor
    ensures r.Err? ==> r == Err(403, "Super admin access required")
  {
    if !actor.isSuperAdmin then Err(403, "Super admin access required") else Ok(actor)
  }

  /** `requireSeller`: the SELLER role and a profile that is approved and not deleted. The
      role comes from the request, the profile from the store. */
  function RequireSeller(s: Store, actor: Actor): (r: Result<Id>)
    ensures actor.role != Seller ==> r == Err(403, "Seller access required")
    ensures r.Ok? <==>
      && actor.role == Seller && ProfileOf(s, actor.userId).Some?
      && s.sellers[ProfileOf(s, actor.userId).value].isApproved
      && !s.sellers[ProfileOf(s, actor.userId).value].isDeleted
    ensures r.Ok? ==> r == Ok(ProfileOf(s, actor.userId).value)
    ensures actor.role == Seller && r.Err? ==> r == Err(403, "Seller account not approved or deactivated")
  {
    if actor.role != Seller then Err(403, "Seller access required")
    else
      var p := ProfileOf(s, actor.userId);
      if p.None? || !s.sellers[p.value].isApproved || s.sellers[p.value].isDeleted then
        Err(403, "Seller account not approved or deactivated")
      else Ok(p.value)
  }
}

=== FILE: category_controller.dfy ===
/** The public category pages: every category in ascending name order, and one
    category, each with the number of its published products. */
module CategoryController {
  import opened Outcomes
  import opened Entities
  import opened Strings

  datatype CategoryView = CategoryView(id: Id, name: string, description: Option<string>, productCount: nat)

  /** The `_count` the pages attach: products of the category that are approved and not deleted. */
  function PublishedCount(s: Store, categoryId: Id): nat
  {
    |set k | k in s.products && s.products[k].categoryId == categoryId
                 && s.products[k].isApproved && !s.products[k].isDeleted|
  }

  function ViewOf(s: Store, id: Id): CategoryView
    requires id in s.categories
  {
    CategoryView(id, s.categories[id].name, s.categories[id].description, PublishedCount(s, id))
  }

  /** A category among `ids` whose name comes first. */
  function FirstByName(s: Store, ids: set<Id>): (m: Id)
    requires ids != {} && ids <= s.categories.Keys
    ensures m in ids
    ensures forall k :: k in ids ==> LessEq(s.categories[m].name, s.categories[k].name)
    decreases |ids|
  {
    var x := Least(ids);
    if ids == {x} then
      LessEqReflexive(s.categories[x].name);
      x
    else
      var m := FirstByName(s, ids - {x});
      if LessEq(s.categories[x].name, s.categories[m].name) then
        forall k | k in ids - {x} ensures LessEq(s.categories[x].name, s.categories[k].name) {
          LessEqTransitive(s.categories[x].name, s.categories[m].name, s.categories[k].name);
        }
        LessEqReflexive(s.categories[x].name);
        x
      else
        LessEqTotal(s.categories[x].name, s.categories[m].name);
        m
  }

  lemma {:induction false} LessEqReflexive(a: string)
    ensures LessEq(a, a)
    decreases |a|
  {
    if |a| > 0 {
      LessEqReflexive(a[1..]);
    }
  }

  /** `ids` in ascending name order, each exactly once. */
  function ByName(s: Store, ids: set<Id>): (r: seq<Id>)
    requires ids <= s.categories.Keys
    ensures |r| == |ids|
    ensures forall i :: 0 <= i < |r| ==> r[i] in ids
    ensures forall k :: k in ids ==> k in r
    ensures forall i, j :: 0 <= i < j < |r| ==> r[i] != r[j]
    ensures forall i, j :: 0 <= i < j < |r| ==> LessEq(s.categories[r[i]].name, s.categories[r[j]].name)
    decreases |ids|
  {
    if ids == {} then []
    else
      var m := FirstByName(s, ids);
      var rest := ByName(s, ids - {m});
      PrependFirst(s, ids, m, rest);
      [m] + rest
  }

  /** Putting the first name of `ids` before an ordering of the others orders all of `ids`. */
  lemma PrependFirst(s: Store, ids: set<Id>, m: Id, rest: seq<Id>)
    requires ids <= s.categories.Keys && m in ids
    requires forall k :: k in ids ==> LessEq(s.categories[m].name, s.categories[k].name)
    requires |rest| == |ids - {m}|
    requires forall i :: 0 <= i < |rest| ==> rest[i] in ids - {m}
    requires forall k :: k in ids - {m} ==> k in rest
    requires forall i, j :: 0 <= i < j < |rest| ==> rest[i] != rest[j]
    requires forall i, j :: 0 <= i < j < |rest| ==> LessEq(s.categories[rest[i]].name, s.categories[rest[j]].name)
    ensures |[m] + rest| == |ids|
    ensures forall i :: 0 <= i < |[m] + rest| ==> ([m] + rest)[i] in ids
    ensures forall k :: k in ids ==> k in [m] + rest
    ensures forall i, j :: 0 <= i < j < |[m] + rest| ==> ([m] + rest)[i] != ([m] + rest)[j]
    ensures forall i, j :: 0 <= i < j < |[m] + rest| ==>
      LessEq(s.categories[([m] + rest)[i]].name, s.categories[([m] + rest)[j]].name)
  {
    var r := [m] + rest;
    assert |ids - {m}| == |ids| - 1;
    forall i | 1 <= i < |r|
      ensures r[i] == rest[i - 1] && r[i] in ids && r[i] != m
    {
    }
    forall k | k in ids
      ensures k in r
    {
      if k != m {
        assert k in ids - {m};
        var i :| 0 <= i < |rest| && rest[i] == k;
        assert r[i + 1] == k;
      }
    }
    forall i, j | 0 <= i < j < |r|
      ensures r[i] != r[j] && LessEq(s.categories[r[i]].name, s.categories[r[j]].name)
    {
      if i > 0 {
        assert r[i] == rest[i - 1] && r[j] == rest[j - 1];
      }
    }
  }

  /** The views of `ids`, in the same order. */
  function Views(s: Store, ids: seq<Id>): (r: seq<CategoryView>)
    requires forall i :: 0 <= i < |ids| ==> ids[i] in s.categories
    ensures |r| == |ids|
    ensures forall i :: 0 <= i < |ids| ==> r[i] == ViewOf(s, ids[i])
  {
    if |ids| == 0 then [] else [ViewOf(s, ids[0])] + Views(s, ids[1..])
  }

  /** The views of an ordering of every category list every category once, in that order. */
  lemma ViewsFollowIds(s: Store, ids: seq<Id>)
    requires |ids| == |s.categories|
    requires forall i :: 0 <= i < |ids| ==> ids[i] in s.categories
    requires forall k :: k in s.categories ==> k in ids
    requires forall i, j :: 0 <= i < j < |ids| ==> ids[i] != ids[j]
    requires forall i, j :: 0 <= i < j < |ids| ==> LessEq(s.categories[ids[i]].name, s.categories[ids[j]].name)
    ensures var r := Views(s, ids);
      && |r| == |s.categories|
      && (forall i :: 0 <= i < |r| ==> r[i].id in s.categories && r[i] == ViewOf(s, r[i].id))
      && (forall k :: k in s.categories ==> exists i :: 0 <= i < |r| && r[i].id == k)
      && (forall i, j :: 0 <= i < j < |r| ==> r[i].id != r[j].id)
      && (forall i, j :: 0 <= i < j < |r| ==> LessEq(r[i].name, r[j].name))
  {
    var r := Views(s, ids);
    forall i | 0 <= i < |r|
      ensures r[i].id == ids[i] && r[i].name == s.categories[ids[i]].name
    {
      assert r[i] == ViewOf(s, ids[i]);
    }
    forall k | k in s.categories
      ensures exists i :: 0 <= i < |r| && r[i].id == k
    {
      var i :| 0 <= i < |ids| && ids[i] == k;
      assert r[i].id == k;
    }
  }

  /** `getAllCategories`: every category, ascending by name, with its published count. */
  function GetAllCategories(s: Store): (r: seq<CategoryView>)
    ensures |r| == |s.categories|
    ensures forall i :: 0 <= i < |r| ==> r[i].id in s.categories && r[i] == ViewOf(s, r[i].id)
    ensures forall k :: k in s.categories ==> exists i :: 0 <= i < |r| && r[i].id == k
    ensures forall i, j :: 0 <= i < j < |r| ==> r[i].id != r[j].id
    ensures forall i, j :: 0 <= i < j < |r| ==> LessEq(r[i].name, r[j].name)
  {
    var ids := ByName(s, s.categories.Keys);
    ViewsFollowIds(s, ids);
    Views(s, ids)
  }

  /** Under unique names the order is strict: no two listed categories share a name. */
  lemma NamesStrictlyAscend(s: Store, i: int, j: int)
    requires UniqueCategoryNames(s)
    requires 0 <= i < j < |GetAllCategories(s)|
    ensures GetAllCategories(s)[i].name != GetAllCategories(s)[j].name
    ensures LessEq(GetAllCategories(s)[i].name, GetAllCategories(s)[j].name)
  {
    var r := GetAllCategories(s);
    assert r[i].id != r[j].id;
    assert r[i].name == s.categories[r[i].id].name;
  }

  /** `getCategoryById`. */
  function GetCategoryById(s: Store, id: Id): (r: Result<CategoryView>)
    ensures r.Ok? <==> id in s.categories
    ensures r.Err? ==> r == Err(404, "Category not found")
    ensures r.Ok? ==> r.value.id == id && r.value.name == s.categories[id].name
    ensures r.Ok? ==> r.value.productCount == PublishedCount(s, id)
  {
    if id !in s.categories then Err(404, "Category not found") else Ok(ViewOf(s, id))
  }

  /** The single-category page and the full list agree on every category. */
  lemma PagesAgree(s: Store, i: int)
    requires 0 <= i < |GetAllCategories(s)|
    ensures GetCategoryById(s, GetAllCategories(s)[i].id) == Ok(GetAllCategories(s)[i])
  {
  }
}

=== FILE: constants.dfy ===
/** The enumerations of the marketplace and the strings they travel as in request
    bodies, query strings and the database. */
module Constants {
  import opened Outcomes

  datatype Role = Buyer | Seller | Admin

  datatype SellerType = Official | FanMade

  datatype OrderStatus = Pending | Accepted | Processing | Shipped | Delivered | Cancelled

  function RoleName(r: Role): string
  {
    match r
    case Buyer => "BUYER"
    case Seller => "SELLER"
    case Admin => "ADMIN"
  }

  function SellerTypeName(t: SellerType): string
  {
    match t
    case Official => "OFFICIAL"
    case FanMade => "FAN_MADE"
  }

  function StatusName(st: OrderStatus): string
  {
    match st
    case Pending => "PENDING"
    case Accepted => "ACCEPTED"
    case Processing => "PROCESSING"
    case Shipped => "SHIPPED"
    case Delivered => "DELIVERED"
    case Cancelled => "CANCELLED"
  }

  /** The role a string names, if any (`['BUYER', 'SELLER', 'ADMIN'].includes(role)`). */
  function ParseRole(name: string): (r: Option<Role>)
    ensures forall x: Role :: r == Some(x) <==> RoleName(x) == name
  {
    if name == "BUYER" then Some(Buyer)
    else if name == "SELLER" then Some(Seller)
    else if name == "ADMIN" then Some(Admin)
    else None
  }

  /** The seller type a string names, if any (`['OFFICIAL', 'FAN_MADE'].includes(sellerType)`). */
  function ParseSellerType(name: string): (r: Option<SellerType>)
    ensures forall x: SellerType :: r == Some(x) <==> SellerTypeName(x) == name
  {
    if name == "OFFICIAL" then Some(Official)
    else if name == "FAN_MADE" then Some(FanMade)
    else None
  }

  /** The order status a string names, if any. */
  function ParseStatus(name: string): (r: Option<OrderStatus>)
    ensures forall x: OrderStatus :: r == Some(x) <==> StatusName(x) == name
  {
    if name == "PENDING" then Some(Pending)
    else if name == "ACCEPTED" then Some(Accepted)
    else if name == "PROCESSING" then Some(Processing)
    else if name == "SHIPPED" then Some(Shipped)
    else if name == "DELIVERED" then Some(Delivered)
    else if name == "CANCELLED" then Some(Cancelled)
    else None
  }
}

=== FILE: entities.dfy ===
/** The persisted state: users, seller profiles, products, orders and categories,
    each a table keyed by id, together with the lookups by unique column, the
    soft-delete and cancellation updates, and the schema's integrity constraints. */
module Entities {
  import opened Constants
  import opened Outcomes

  /** A primary key (a uuid in the store). */
  type Id = nat

  /** A timestamp from the clock (`new Date()`), kept opaque. */
  type Time = nat

  /** `password` holds the bcrypt hash, never the plain text. */
  datatype User = User(
    email: string,
    password: string,
    fullName: string,
    phoneNumber: string,
    address: string,
    role: Role,
    isSuperAdmin: bool,
    isDeleted: bool,
    deletedAt: Option<Time>)

  /** A seller application; `sellerType` stays null until an admin approves it. */
  datatype SellerProfile = SellerProfile(
    userId: Id,
    businessName: string,
    businessDescription: string,
    paymentMethods: seq<string>,
    averageShippingCost: real,
    estimatedDeliveryDays: int,
    shippingRegions: string,
    socialLinks: Option<string>,
    isApproved: bool,
    sellerType: Option<SellerType>,
    isDeleted: bool,
    deletedAt: Option<Time>)

  /** An image stored by the image host; `order` is its position in the gallery. */
  datatype Image = Image(url: string, publicId: string, order: nat)

  datatype Product = Product(
    sellerId: Id,
    categoryId: Id,
    name: string,
    description: string,
    price: real,
    productType: Option<SellerType>,
    images: seq<Image>,
    isApproved: bool,
    isDeleted: bool,
    deletedAt: Option<Time>)

  datatype Order = Order(
    buyerId: Id,
    sellerId: Id,
    productId: Id,
    buyerAddress: string,
    buyerPhone: string,
    buyerNotes: Option<string>,
    status: OrderStatus,
    isCancelled: bool)

  datatype Category = Category(name: string, description: Option<string>)

  datatype Store = Store(
    users: map<Id, User>,
    sellers: map<Id, SellerProfile>,
    products: map<Id, Product>,
    orders: map<Id, Order>,
    categories: map<Id, Category>)

  /** `req.user` as `authenticate` attaches it: a snapshot of the caller's row. */
  datatype Actor = Actor(userId: Id, email: string, fullName: string, role: Role, isSuperAdmin: bool)

  /** A user row as responses show it: everything but the password hash. */
  datatype UserInfo = UserInfo(
    id: Id,
    email: string,
    fullName: string,
    phoneNumber: string,
    address: string,
    role: Role,
    isSuperAdmin: bool,
    isDeleted: bool,
    deletedAt: Option<Time>)

  function InfoOf(id: Id, u: User): UserInfo
  {
    UserInfo(id, u.email, u.fullName, u.phoneNumber, u.address, u.role, u.isSuperAdmin, u.isDeleted, u.deletedAt)
  }

  /** The store as a handler leaves it: the new store on success, the old one on failure. */
  function StoreAfter(s: Store, r: Result<Store>): Store
  {
    if r.Ok? then r.value else s
  }

  // ---------------------------------------------------------------------------
  // Lookups by a unique column. The store guarantees at most one match; the
  // model takes the least matching id, which is that match when there is one.
  // ---------------------------------------------------------------------------

  lemma {:induction false} HasLeast(ids: set<Id>)
    requires ids != {}
    ensures exists m :: m in ids && forall k :: k in ids ==> m <= k
    decreases |ids|
  {
    var m := LeastOf(ids);
  }

  lemma {:induction false} LeastOf(ids: set<Id>) returns (m: Id)
    requires ids != {}
    ensures m in ids && forall k :: k in ids ==> m <= k
    decreases |ids|
  {
    var x :| x in ids;
    var rest := ids - {x};
    if rest == {} {
      m := x;
      forall k | k in ids
        ensures m <= k
      {
        assert k !in rest;
      }
    } else {
      var m0 := LeastOf(rest);
      m := if x < m0 then x else m0;
      forall k | k in ids
        ensures m <= k
      {
        if k != x {
          assert k in rest;
        }
      }
    }
  }

  function Least(ids: set<Id>): (m: Id)
    requires ids != {}
    ensures m in ids && forall k :: k in ids ==> m <= k
  {
    HasLeast(ids);
    var m :| m in ids && forall k :: k in ids ==> m <= k; m
  }

  /** `sellerProfile.findUnique({ where: { userId } })`, deleted profiles included. */
  function ProfileOf(s: Store, userId: Id): (r: Option<Id>)
    ensures r.Some? ==> r.value in s.sellers && s.sellers[r.value].userId == userId
    ensures r.None? <==> forall k :: k in s.sellers ==> s.sellers[k].userId != userId
  {
    var hits := set k | k in s.sellers && s.sellers[k].userId == userId;
    if hits != {} then Some(Least(hits))
    else
      assert forall k :: k in s.sellers ==> k !in hits;
      None
  }

  /** `user.findUnique({ where: { email } })`, deleted users included. */
  function UserByEmail(s: Store, email: string): (r: Option<Id>)
    ensures r.Some? ==> r.value in s.users && s.users[r.value].email == email
    ensures r.None? <==> forall k :: k in s.users ==> s.users[k].email != email
  {
    var hits := set k | k in s.users && s.users[k].email == email;
    if hits != {} then Some(Least(hits))
    else
      assert forall k :: k in s.users ==> k !in hits;
      None
  }

  /** `category.findUnique({ where: { name } })`. */
  function CategoryByName(s: Store, name: string): (r: Option<Id>)
    ensures r.Some? ==> r.value in s.categories && s.categories[r.value].name == name
    ensures r.None? <==> forall k :: k in s.categories ==> s.categories[k].name != name
  {
    var hits := set k | k in s.categories && s.categories[k].name == name;
    if hits != {} then Some(Least(hits))
    else
      assert forall k :: k in s.categories ==> k !in hits;
      None
  }

  // ---------------------------------------------------------------------------
  // Soft deletion and cancellation
  // ---------------------------------------------------------------------------

  function SoftDeletedUser(u: User, now: Time): User
  {
    u.(isDeleted := true, deletedAt := Some(now))
  }

  function SoftDeletedProfile(p: SellerProfile, now: Time): SellerProfile
  {
    p.(isDeleted := true, deletedAt := Some(now))
  }

  function SoftDeletedProduct(p: Product, now: Time): Product
  {
    p.(isDeleted := true, deletedAt := Some(now))
  }

  function CancelledOrder(o: Order): Order
  {
    o.(status := Cancelled, isCancelled := true)
  }

  /** The statuses a cascade cancels: `in: ['PENDING', 'ACCEPTED', 'PROCESSING', 'SHIPPED']`. */
  predicate IsActive(st: OrderStatus)
  {
    st == Pending || st == Accepted || st == Processing || st == Shipped
  }

  /** Which side of an order a cascade follows. */
  datatype Party = AsSeller(sellerId: Id) | AsBuyer(buyerId: Id)

  predicate Involves(o: Order, party: Party)
  {
    match party
    case AsSeller(sid) => o.sellerId == sid
    case AsBuyer(bid) => o.buyerId == bid
  }

  /** `product.updateMany({ where: { sellerId }, data: { isDeleted: true, deletedAt } })`. */
  function SoftDeleteProductsOf(ps: map<Id, Product>, sellerId: Id, now: Time): map<Id, Product>
  {
    map k | k in ps :: if ps[k].sellerId == sellerId then SoftDeletedProduct(ps[k], now) else ps[k]
  }

  /** `order.updateMany` cancelling the party's orders whose status is active. */
  function CancelActiveOrdersOf(os: map<Id, Order>, party: Party): map<Id, Order>
  {
    map k | k in os :: if Involves(os[k], party) && IsActive(os[k].status) then CancelledOrder(os[k]) else os[k]
  }

  // ---------------------------------------------------------------------------
  // Frames: which rows a successful handler may have written
  // ---------------------------------------------------------------------------

  /** Every table but `orders` is unchanged, and so is every order except `id`. */
  ghost predicate OnlyOrderChanged(s: Store, s': Store, id: Id)
  {
    && s'.users == s.users && s'.sellers == s.sellers
    && s'.products == s.products && s'.categories == s.categories
    && s'.orders.Keys == s.orders.Keys
    && forall k :: k in s.orders && k != id ==> s'.orders[k] == s.orders[k]
  }

  /** Every table but `products` is unchanged, and so is every product except `id`. */
  ghost predicate OnlyProductChanged(s: Store, s': Store, id: Id)
  {
    && s'.users == s.users && s'.sellers == s.sellers
    && s'.orders == s.orders && s'.categories == s.categories
    && s'.products.Keys == s.products.Keys
    && forall k :: k in s.products && k != id ==> s'.products[k] == s.products[k]
  }

  /** Every table but `users` is unchanged, and so is every user except `id`. */
  ghost predicate OnlyUserChanged(s: Store, s': Store, id: Id)
  {
    && s'.sellers == s.sellers && s'.products == s.products
    && s'.orders == s.orders && s'.categories == s.categories
    && s'.users.Keys == s.users.Keys
    && forall k :: k in s.users && k != id ==> s'.users[k] == s.users[k]
  }

  /** Every table but `sellers` is unchanged, and so is every profile except `id`. */
  ghost predicate OnlyProfileChanged(s: Store, s': Store, id: Id)
  {
    && s'.users == s.users && s'.products == s.products
    && s'.orders == s.orders && s'.categories == s.categories
    && s'.sellers.Keys == s.sellers.Keys
    && forall k :: k in s.sellers && k != id ==> s'.sellers[k] == s.sellers[k]
  }

  /** Every table but `categories` is unchanged, and so is every category except `id`. */
  ghost predicate OnlyCategoryChanged(s: Store, s': Store, id: Id)
  {
    && s'.users == s.users && s'.sellers == s.sellers
    && s'.products == s.products && s'.orders == s.orders
    && s'.categories.Keys == s.categories.Keys
    && forall k :: k in s.categories && k != id ==> s'.categories[k] == s.categories[k]
  }

  /** Two orders agree on everything the buyer entered and on who and what they refer to. */
  predicate SameOrderDetails(o: Order, o': Order)
  {
    && o'.buyerId == o.buyerId && o'.sellerId == o.sellerId && o'.productId == o.productId
    && o'.buyerAddress == o.buyerAddress && o'.buyerPhone == o.buyerPhone
    && o'.buyerNotes == o.buyerNotes
  }

  /** Two products agree on their listing content and ownership. */
  predicate SameProductContent(p: Product, p': Product)
  {
    && p'.sellerId == p.sellerId && p'.categoryId == p.categoryId
    && p'.name == p.name && p'.description == p.description && p'.price == p.price
    && p'.productType == p.productType && p'.images == p.images
  }

  // ---------------------------------------------------------------------------
  // The schema's integrity constraints
  // ---------------------------------------------------------------------------

  /** `User.email` is unique. */
  ghost predicate UniqueEmails(s: Store)
  {
    forall a, b :: a in s.users && b in s.users && s.users[a].email == s.users[b].email ==> a == b
  }

  /** `SellerProfile.userId` is unique: one profile per user, deleted or not. */
  ghost predicate OneProfilePerUser(s: Store)
  {
    forall a, b :: a in s.sellers && b in s.sellers && s.sellers[a].userId == s.sellers[b].userId ==> a == b
  }

  /** `Category.name` is unique. */
  ghost predicate UniqueCategoryNames(s: Store)
  {
    forall a, b :: a in s.categories && b in s.categories && s.categories[a].name == s.categories[b].name ==> a == b
  }

  /** Every foreign key points at an existing row. */
  ghost predicate ReferencesResolve(s: Store)
  {
    && (forall k :: k in s.sellers ==> s.sellers[k].userId in s.users)
    && (forall k :: k in s.products ==> s.products[k].sellerId in s.sellers && s.products[k].categoryId in s.categories)
    && (forall k :: k in s.orders ==>
          s.orders[k].buyerId in s.users && s.orders[k].sellerId in s.sellers && s.orders[k].productId in s.products)
  }

  /** The cancellation tombstone is set exactly on cancelled orders. */
  ghost predicate TombstonesMatch(s: Store)
  {
    forall k :: k in s.orders ==> (s.orders[k].isCancelled <==> s.orders[k].status == Cancelled)
  }

  /** An approved seller has been given a type. */
  ghost predicate ApprovedSellersTyped(s: Store)
  {
    forall k :: k in s.sellers && s.sellers[k].isApproved ==> s.sellers[k].sellerType.Some?
  }

  ghost predicate Wf(s: Store)
  {
    && UniqueEmails(s) && OneProfilePerUser(s) && UniqueCategoryNames(s)
    && ReferencesResolve(s) && TombstonesMatch(s) && ApprovedSellersTyped(s)
  }

  /** Two stores hold the same rows with the same unique columns and references: what a
      handler that only flips flags, statuses and free-text fields leaves alone. */
  ghost predicate SameSkeleton(s: Store, s': Store)
  {
    && s'.users.Keys == s.users.Keys && s'.sellers.Keys == s.sellers.Keys
    && s'.products.Keys == s.products.Keys && s'.orders.Keys == s.orders.Keys
    && s'.categories.Keys == s.categories.Keys
    && (forall k :: k in s.users ==> s'.users[k].email == s.users[k].email)
    && (forall k :: k in s.sellers ==> s'.sellers[k].userId == s.sellers[k].userId)
    && (forall k :: k in s.categories ==> s'.categories[k].name == s.categories[k].name)
    && (forall k :: k in s.products ==>
          s'.products[k].sellerId == s.products[k].sellerId && s'.products[k].categoryId == s.products[k].categoryId)
    && (forall k :: k in s.orders ==> SameOrderDetails(s.orders[k], s'.orders[k]))
  }

  /** A store with the same skeleton as a consistent one is consistent as soon as its
      tombstones and seller types are. */
  lemma SkeletonKeepsWf(s: Store, s': Store)
    requires Wf(s) && SameSkeleton(s, s')
    requires TombstonesMatch(s') && ApprovedSellersTyped(s')
    ensures Wf(s')
  {
    assert UniqueEmails(s') by {
      forall a, b | a in s'.users && b in s'.users && s'.users[a].email == s'.users[b].email
        ensures a == b
      {
        assert s.users[a].email == s.users[b].email;
      }
    }
    assert OneProfilePerUser(s') by {
      forall a, b | a in s'.sellers && b in s'.sellers && s'.sellers[a].userId == s'.sellers[b].userId
        ensures a == b
      {
        assert s.sellers[a].userId == s.sellers[b].userId;
      }
    }
    assert UniqueCategoryNames(s') by {
      forall a, b | a in s'.categories && b in s'.categories && s'.categories[a].name == s'.categories[b].name
        ensures a == b
      {
        assert s.categories[a].name == s.categories[b].name;
      }
    }
    SkeletonKeepsReferences(s, s');
  }

  lemma SkeletonKeepsReferences(s: Store, s': Store)
    requires ReferencesResolve(s) && SameSkeleton(s, s')
    ensures ReferencesResolve(s')
  {
    forall k | k in s'.sellers ensures s'.sellers[k].userId in s'.users {
      assert k in s.sellers;
    }
    forall k | k in s'.products
      ensures s'.products[k].sellerId in s'.sellers && s'.products[k].categoryId in s'.categories
    {
      assert k in s.products;
    }
    forall k | k in s'.orders
      ensures s'.orders[k].buyerId in s'.users && s'.orders[k].sellerId in s'.sellers
        && s'.orders[k].productId in s'.products
    {
      assert k in s.orders;
      assert SameOrderDetails(s.orders[k], s'.orders[k]);
    }
  }

  /** Under the unique constraint, the profile lookup finds the user's one profile. */
  lemma ProfileOfFindsTheProfile(s: Store, userId: Id, k: Id)
    requires OneProfilePerUser(s)
    requires k in s.sellers && s.sellers[k].userId == userId
    ensures ProfileOf(s, userId) == Some(k)
  {
  }
}

=== FILE: integrity.dfy ===
/** The schema's integrity constraints survive every request: each handler that writes
    the store, applied to a consistent store, leaves a consistent one. The cascades
    carry their own proofs next to their definitions. */
module Integrity {
  import opened Constants
  import opened Outcomes
  import opened Entities
  import opened Validation
  import OrderController
  import ProductController
  import AdminProductController
  import AdminUserController
  import AuthController
  import SellerController
  import UserController
  import AdminCategoryController

  // ---------------------------------------------------------------------------
  // Edits of one row
  // ---------------------------------------------------------------------------

  /** Rewriting one order keeps the store consistent when the order keeps its details
      and its tombstone agrees with its status. */
  lemma OrderEditKeepsWf(s: Store, s': Store, id: Id)
    requires Wf(s) && id in s.orders && OnlyOrderChanged(s, s', id)
    requires SameOrderDetails(s.orders[id], s'.orders[id])
    requires s'.orders[id].isCancelled <==> s'.orders[id].status == Cancelled
    ensures Wf(s')
  {
    forall k | k in s.orders ensures SameOrderDetails(s.orders[k], s'.orders[k]) {
    }
    forall k | k in s'.orders ensures s'.orders[k].isCancelled <==> s'.orders[k].status == Cancelled {
      assert k in s.orders;
    }
    assert SameSkeleton(s, s');
    SkeletonKeepsWf(s, s');
  }

  /** Rewriting one product keeps the store consistent when it stays with its seller and
      points at an existing category. */
  lemma ProductEditKeepsWf(s: Store, s': Store, id: Id)
    requires Wf(s) && id in s.products && OnlyProductChanged(s, s', id)
    requires s'.products[id].sellerId == s.products[id].sellerId
    requires s'.products[id].categoryId in s.categories
    ensures Wf(s')
  {
    ProductEditKeepsReferences(s, s', id);
    assert UniqueEmails(s') && OneProfilePerUser(s') && UniqueCategoryNames(s');
    assert TombstonesMatch(s') && ApprovedSellersTyped(s');
  }

  lemma ProductEditKeepsReferences(s: Store, s': Store, id: Id)
    requires ReferencesResolve(s) && id in s.products && OnlyProductChanged(s, s', id)
    requires s'.products[id].sellerId == s.products[id].sellerId
    requires s'.products[id].categoryId in s.categories
    ensures ReferencesResolve(s')
  {
    forall k | k in s'.products
      ensures s'.products[k].sellerId in s'.sellers && s'.products[k].categoryId in s'.categories
    {
      assert k in s.products;
    }
    forall k | k in s'.orders
      ensures s'.orders[k].buyerId in s'.users && s'.orders[k].sellerId in s'.sellers
        && s'.orders[k].productId in s'.products
    {
      assert k in s.orders;
    }
  }

  /** Rewriting one user keeps the store consistent when the email stays. */
  lemma UserEditKeepsWf(s: Store, s': Store, id: Id)
    requires Wf(s) && id in s.users && OnlyUserChanged(s, s', id)
    requires s'.users[id].email == s.users[id].email
    ensures Wf(s')
  {
    forall k | k in s.users ensures s'.users[k].email == s.users[k].email {
    }
    assert SameSkeleton(s, s');
    SkeletonKeepsWf(s, s');
  }

  /** Rewriting one profile keeps the store consistent when its owner stays and it is
      not left approved without a type. */
  lemma ProfileEditKeepsWf(s: Store, s': Store, id: Id)
    requires Wf(s) && id in s.sellers && OnlyProfileChanged(s, s', id)
    requires s'.sellers[id].userId == s.sellers[id].userId
    requires s'.sellers[id].isApproved ==> s'.sellers[id].sellerType.Some?
    ensures Wf(s')
  {
    forall k | k in s.sellers ensures s'.sellers[k].userId == s.sellers[k].userId {
    }
    forall k | k in s'.sellers && s'.sellers[k].isApproved ensures s'.sellers[k].sellerType.Some? {
      assert k in s.sellers;
    }
    assert SameSkeleton(s, s');
    SkeletonKeepsWf(s, s');
  }

  // ---------------------------------------------------------------------------
  // Orders
  // ---------------------------------------------------------------------------

  /** A placed order refers to its buyer, the product's seller and the product; the
      buyer is the authenticated caller, whose row exists. */
  lemma PlaceOrderKeepsWf(s: Store, actor: Actor, input: PlaceOrderInput, newId: Id)
    requires Wf(s) && newId !in s.orders && actor.userId in s.users
    requires OrderController.PlaceOrder(s, actor, input, newId).Ok?
    ensures Wf(OrderController.PlaceOrder(s, actor, input, newId).value.0)
  {
    var s' := OrderController.PlaceOrder(s, actor, input, newId).value.0;
    forall k | k in s'.orders
      ensures s'.orders[k].buyerId in s'.users && s'.orders[k].sellerId in s'.sellers
        && s'.orders[k].productId in s'.products
    {
      if k != newId {
        assert s'.orders[k] == s.orders[k];
      }
    }
    assert ReferencesResolve(s');
    forall k | k in s'.orders ensures s'.orders[k].isCancelled <==> s'.orders[k].status == Cancelled {
      if k != newId {
        assert s'.orders[k] == s.orders[k];
      }
    }
  }

  lemma CancelOrderKeepsWf(s: Store, actor: Actor, id: Id)
    requires Wf(s) && OrderController.CancelOrder(s, actor, id).Ok?
    ensures Wf(OrderController.CancelOrder(s, actor, id).value.0)
  {
    OrderEditKeepsWf(s, OrderController.CancelOrder(s, actor, id).value.0, id);
  }

  lemma UpdateOrderStatusKeepsWf(s: Store, actor: Actor, id: Id, target: string)
    requires Wf(s) && OrderController.UpdateOrderStatus(s, actor, id, target).Ok?
    ensures Wf(OrderController.UpdateOrderStatus(s, actor, id, target).value.0)
  {
    var o' := OrderController.UpdateOrderStatus(s, actor, id, target).value.1;
    assert o'.status != Cancelled;
    OrderEditKeepsWf(s, OrderController.UpdateOrderStatus(s, actor, id, target).value.0, id);
  }

  // ---------------------------------------------------------------------------
  // Products
  // ---------------------------------------------------------------------------

  lemma CreateProductKeepsWf(s: Store, actor: Actor, input: ProductInput,
                             answers: seq<Option<ProductController.Upload>>, newId: Id)
    requires Wf(s) && newId !in s.products
    requires ProductController.CreateProduct(s, actor, input, answers, newId).Ok?
    ensures Wf(ProductController.CreateProduct(s, actor, input, answers, newId).value.0)
  {
    var s' := ProductController.CreateProduct(s, actor, input, answers, newId).value.0;
    forall k | k in s'.products
      ensures s'.products[k].sellerId in s'.sellers && s'.products[k].categoryId in s'.categories
    {
      if k != newId {
        assert s'.products[k] == s.products[k];
      }
    }
    forall k | k in s'.orders
      ensures s'.orders[k].buyerId in s'.users && s'.orders[k].sellerId in s'.sellers
        && s'.orders[k].productId in s'.products
    {
      assert k in s.orders;
    }
    assert ReferencesResolve(s');
  }

  lemma UpdateProductKeepsWf(s: Store, actor: Actor, id: Id, u: ProductUpdate)
    requires Wf(s) && ProductController.UpdateProduct(s, actor, id, u).Ok?
    ensures Wf(ProductController.UpdateProduct(s, actor, id, u).value.0)
  {
    ProductEditKeepsWf(s, ProductController.UpdateProduct(s, actor, id, u).value.0, id);
  }

  lemma DeleteProductKeepsWf(s: Store, actor: Actor, id: Id, now: Time)
    requires Wf(s) && ProductController.DeleteProduct(s, actor, id, now).Ok?
    ensures Wf(ProductController.DeleteProduct(s, actor, id, now).value)
  {
    ProductEditKeepsWf(s, ProductController.DeleteProduct(s, actor, id, now).value, id);
  }

  lemma ApproveProductKeepsWf(s: Store, id: Id)
    requires Wf(s) && AdminProductController.ApproveProduct(s, id).Ok?
    ensures Wf(AdminProductController.ApproveProduct(s, id).value.0)
  {
    ProductEditKeepsWf(s, AdminProductController.ApproveProduct(s, id).value.0, id);
  }

  lemma RemoveProductKeepsWf(s: Store, id: Id, now: Time)
    requires Wf(s) && AdminProductController.RemoveProduct(s, id, now).Ok?
    ensures Wf(AdminProductController.RemoveProduct(s, id, now).value)
  {
    ProductEditKeepsWf(s, AdminProductController.RemoveProduct(s, id, now).value, id);
  }

  // ---------------------------------------------------------------------------
  // Accounts, profiles and categories
  // ---------------------------------------------------------------------------

  lemma RegisterKeepsWf(s: Store, input: AccountInput, hash: string -> string, newId: Id)
    requires Wf(s) && newId !in s.users && AuthController.Register(s, input, hash, newId).Ok?
    ensures Wf(AuthController.Register(s, input, hash, newId).value.0)
  {
    var s' := AuthController.Register(s, input, hash, newId).value.0;
    assert s'.users[newId].email == input.email;
  }

  lemma RemoveAdminKeepsWf(s: Store, id: Id, now: Time)
    requires Wf(s) && AdminUserController.RemoveAdmin(s, id, now).Ok?
    ensures Wf(AdminUserController.RemoveAdmin(s, id, now).value)
  {
    UserEditKeepsWf(s, AdminUserController.RemoveAdmin(s, id, now).value, id);
  }

  lemma UpdateProfileKeepsWf(s: Store, actor: Actor, u: ProfileUpdate)
    requires Wf(s) && UserController.UpdateProfile(s, actor, u).Ok?
    ensures Wf(UserController.UpdateProfile(s, actor, u).value.0)
  {
    UserEditKeepsWf(s, UserController.UpdateProfile(s, actor, u).value.0, actor.userId);
  }

  /** An application adds the caller's first profile, unapproved. */
  lemma ApplyKeepsWf(s: Store, actor: Actor, a: SellerApplication, newId: Id)
    requires Wf(s) && newId !in s.sellers && SellerController.Apply(s, actor, a, newId).Ok?
    ensures Wf(SellerController.Apply(s, actor, a, newId).value.0)
  {
    var s' := SellerController.Apply(s, actor, a, newId).value.0;
    forall x, y | x in s'.sellers && y in s'.sellers && s'.sellers[x].userId == s'.sellers[y].userId
      ensures x == y
    {
      if x != newId && y != newId {
        assert s.sellers[x].userId == s.sellers[y].userId;
      }
    }
    forall k | k in s'.products
      ensures s'.products[k].sellerId in s'.sellers && s'.products[k].categoryId in s'.categories
    {
      assert k in s.products;
    }
    forall k | k in s'.orders
      ensures s'.orders[k].buyerId in s'.users && s'.orders[k].sellerId in s'.sellers
        && s'.orders[k].productId in s'.products
    {
      assert k in s.orders;
    }
    assert ReferencesResolve(s');
  }

  lemma UpdateSellerProfileKeepsWf(s: Store, actor: Actor, u: SellerProfileUpdate)
    requires Wf(s) && SellerController.UpdateSellerProfile(s, actor, u).Ok?
    ensures Wf(SellerController.UpdateSellerProfile(s, actor, u).value.0)
  {
    ProfileEditKeepsWf(s, SellerController.UpdateSellerProfile(s, actor, u).value.0, ProfileOf(s, actor.userId).value);
  }

  lemma CreateCategoryKeepsWf(s: Store, name: string, description: Option<string>, newId: Id)
    requires Wf(s) && newId !in s.categories
    requires AdminCategoryController.CreateCategory(s, name, description, newId).Ok?
    ensures Wf(AdminCategoryController.CreateCategory(s, name, description, newId).value.0)
  {
    AdminCategoryController.CreateKeepsNamesUnique(s, name, description, newId);
  }

  lemma UpdateCategoryKeepsWf(s: Store, id: Id, input: CategoryInput)
    requires Wf(s) && AdminCategoryController.UpdateCategory(s, id, input).Ok?
    ensures Wf(AdminCategoryController.UpdateCategory(s, id, input).value.0)
  {
    AdminCategoryController.UpdateKeepsNamesUnique(s, id, input);
  }

  // ---------------------------------------------------------------------------
  // What the request schemas keep true of the stored rows
  // ---------------------------------------------------------------------------

  /** Every product has a positive price. */
  ghost predicate PricesPositive(s: Store)
  {
    forall k :: k in s.products ==> s.products[k].price > 0.0
  }

  /** Every seller profile names a payment method and has a positive shipping cost and
      a positive number of delivery days. */
  ghost predicate ProfilesComplete(s: Store)
  {
    forall k :: k in s.sellers ==>
      && |s.sellers[k].paymentMethods| >= 1
      && s.sellers[k].averageShippingCost > 0.0
      && s.sellers[k].estimatedDeliveryDays > 0
  }

  /** Every order carries an address of at least five and a phone of at least ten characters. */
  ghost predicate ContactsComplete(s: Store)
  {
    forall k :: k in s.orders ==> |s.orders[k].buyerAddress| >= 5 && |s.orders[k].buyerPhone| >= 10
  }

  lemma CreateProductKeepsPricesPositive(s: Store, actor: Actor, input: ProductInput,
                                         answers: seq<Option<ProductController.Upload>>, newId: Id)
    requires PricesPositive(s) && ValidNewProduct(input) && newId !in s.products
    requires ProductController.CreateProduct(s, actor, input, answers, newId).Ok?
    ensures PricesPositive(ProductController.CreateProduct(s, actor, input, answers, newId).value.0)
  {
    var s' := ProductController.CreateProduct(s, actor, input, answers, newId).value.0;
    forall k | k in s'.products ensures s'.products[k].price > 0.0 {
      if k != newId {
        assert s'.products[k] == s.products[k];
      }
    }
  }

  lemma UpdateProductKeepsPricesPositive(s: Store, actor: Actor, id: Id, u: ProductUpdate)
    requires PricesPositive(s) && ValidProductUpdate(u)
    requires ProductController.UpdateProduct(s, actor, id, u).Ok?
    ensures PricesPositive(ProductController.UpdateProduct(s, actor, id, u).value.0)
  {
    var s' := ProductController.UpdateProduct(s, actor, id, u).value.0;
    forall k | k in s'.products ensures s'.products[k].price > 0.0 {
      if k != id {
        assert s'.products[k] == s.products[k];
      }
    }
  }

  lemma ApplyKeepsProfilesComplete(s: Store, actor: Actor, a: SellerApplication, newId: Id)
    requires ProfilesComplete(s) && ValidSellerApplication(a) && newId !in s.sellers
    requires SellerController.Apply(s, actor, a, newId).Ok?
    ensures ProfilesComplete(SellerController.Apply(s, actor, a, newId).value.0)
  {
    var s' := SellerController.Apply(s, actor, a, newId).value.0;
    forall k | k in s'.sellers
      ensures |s'.sellers[k].paymentMethods| >= 1 && s'.sellers[k].averageShippingCost > 0.0
      ensures s'.sellers[k].estimatedDeliveryDays > 0
    {
      if k != newId {
        assert s'.sellers[k] == s.sellers[k];
      }
    }
  }

  lemma UpdateSellerProfileKeepsProfilesComplete(s: Store, actor: Actor, u: SellerProfileUpdate)
    requires ProfilesComplete(s) && ValidSellerProfileUpdate(u)
    requires SellerController.UpdateSellerProfile(s, actor, u).Ok?
    ensures ProfilesComplete(SellerController.UpdateSellerProfile(s, actor, u).value.0)
  {
    var s' := SellerController.UpdateSellerProfile(s, actor, u).value.0;
    var id := ProfileOf(s, actor.userId).value;
    forall k | k in s'.sellers
      ensures |s'.sellers[k].paymentMethods| >= 1 && s'.sellers[k].averageShippingCost > 0.0
      ensures s'.sellers[k].estimatedDeliveryDays > 0
    {
      if k != id {
        assert s'.sellers[k] == s.sellers[k];
      }
    }
  }

  lemma PlaceOrderKeepsContactsComplete(s: Store, actor: Actor, input: PlaceOrderInput, newId: Id)
    requires ContactsComplete(s) && ValidPlaceOrder(input) && newId !in s.orders
    requires OrderController.PlaceOrder(s, actor, input, newId).Ok?
    ensures ContactsComplete(OrderController.PlaceOrder(s, actor, input, newId).value.0)
  {
    var s' := OrderController.PlaceOrder(s, actor, input, newId).value.0;
    forall k | k in s'.orders ensures |s'.orders[k].buyerAddress| >= 5 && |s'.orders[k].buyerPhone| >= 10 {
      if k != newId {
        assert s'.orders[k] == s.orders[k];
      }
    }
  }

  /** A status that passes the validator moves an order forward and never to PENDING or
      CANCELLED: cancelling is the buyer's request alone. */
  lemma ValidatedStatusNeverCancels(s: Store, actor: Actor, id: Id, target: string)
    requires ValidStatusUpdate(target) && OrderController.UpdateOrderStatus(s, actor, id, target).Ok?
    ensures var o := OrderController.UpdateOrderStatus(s, actor, id, target).value.1;
      o.status != Pending && o.status != Cancelled && !o.isCancelled
  {
  }
}

=== FILE: order_controller.dfy ===
/** Orders: placement by a buyer, cancellation by the buyer while pending, the seller's
    one-step status table, and the buyer's order list with the seller's contact details
    withheld while an order is pending. */
module OrderController {
  import opened Constants
  import opened Outcomes
  import opened Entities
  import opened Validation

  // ---------------------------------------------------------------------------
  // The state machine of one order
  // ---------------------------------------------------------------------------

  /** `validTransitions`: the one status a seller may move an order to next.
      CANCELLED has no entry in the table, so it has no successor either. */
  function Successor(st: OrderStatus): Option<OrderStatus>
  {
    match st
    case Pending => Some(Accepted)
    case Accepted => Some(Processing)
    case Processing => Some(Shipped)
    case Shipped => Some(Delivered)
    case Delivered => None
    case Cancelled => None
  }

  /** Position along PENDING -> ACCEPTED -> PROCESSING -> SHIPPED -> DELIVERED;
      a cancelled order lies beyond all of them. */
  function Progress(st: OrderStatus): nat
  {
    match st
    case Pending => 0
    case Accepted => 1
    case Processing => 2
    case Shipped => 3
    case Delivered => 4
    case Cancelled => 5
  }

  /** The tombstone flag agrees with the status. */
  predicate TombstoneMatches(o: Order)
  {
    o.isCancelled <==> o.status == Cancelled
  }

  /** The seller's step on an order they own: refused on a cancelled order, and
      otherwise accepted only for the name of the status's one successor. */
  function Advance(o: Order, target: string): (r: Result<Order>)
    ensures o.isCancelled ==> r == Err(400, "Cannot update cancelled orders")
    ensures r.Ok? <==>
      !o.isCancelled && Successor(o.status).Some? && StatusName(Successor(o.status).value) == target
    ensures !o.isCancelled && r.Err? ==>
      r == Err(400, "Cannot change status from " + StatusName(o.status) + " to " + target)
    ensures r.Ok? ==>
      && Progress(r.value.status) == Progress(o.status) + 1
      && r.value.status != Cancelled
      && StatusName(r.value.status) == target
      && r.value.isCancelled == o.isCancelled
      && SameOrderDetails(o, r.value)
  {
    if o.isCancelled then Err(400, "Cannot update cancelled orders")
    else match Successor(o.status)
      case Some(next) =>
        if StatusName(next) == target then Ok(o.(status := next))
        else Err(400, "Cannot change status from " + StatusName(o.status) + " to " + target)
      case None => Err(400, "Cannot change status from " + StatusName(o.status) + " to " + target)
  }

  /** The buyer's cancellation of an order they placed: only a pending order can go. */
  function Cancel(o: Order): (r: Result<Order>)
    ensures r.Ok? <==> o.status == Pending
    ensures r.Err? ==> r == Err(400, "Only pending orders can be cancelled")
    ensures r.Ok? ==> r.value.status == Cancelled && r.value.isCancelled && SameOrderDetails(o, r.value)
  {
    if o.status != Pending then Err(400, "Only pending orders can be cancelled")
    else Ok(CancelledOrder(o))
  }

  /** What the owning seller or the buyer may ask of one order. */
  datatype Action = SellerSets(target: string) | BuyerCancels

  /** The order after one request; a refused request leaves it as it was. */
  function Step(o: Order, a: Action): Order
  {
    var r := match a
      case SellerSets(target) => Advance(o, target)
      case BuyerCancels => Cancel(o);
    if r.Ok? then r.value else o
  }

  /** The order after a sequence of requests. */
  function Run(o: Order, actions: seq<Action>): Order
    decreases |actions|
  {
    if |actions| == 0 then o else Run(Step(o, actions[0]), actions[1..])
  }

  /** A cancelled order is final: no sequence of seller or buyer requests changes it. */
  lemma {:induction false} CancelledIsFinal(o: Order, actions: seq<Action>)
    requires o.isCancelled && TombstoneMatches(o)
    ensures Run(o, actions) == o
    decreases |actions|
  {
    if |actions| > 0 {
      assert Step(o, actions[0]) == o;
      CancelledIsFinal(o, actions[1..]);
    }
  }

  /** No sequence of requests moves an order backwards: its progress never decreases,
      the tombstone keeps agreeing with the status, and details never change. */
  lemma {:induction false} RunNeverMovesBack(o: Order, actions: seq<Action>)
    requires TombstoneMatches(o)
    ensures Progress(Run(o, actions).status) >= Progress(o.status)
    ensures TombstoneMatches(Run(o, actions))
    ensures SameOrderDetails(o, Run(o, actions))
    decreases |actions|
  {
    if |actions| > 0 {
      var o1 := Step(o, actions[0]);
      assert Progress(o1.status) >= Progress(o.status) && TombstoneMatches(o1) && SameOrderDetails(o, o1);
      RunNeverMovesBack(o1, actions[1..]);
    }
  }

  /** From PENDING the seller reaches DELIVERED in exactly four named steps. */
  lemma LifecycleToDelivery(o: Order)
    requires o.status == Pending && !o.isCancelled
    ensures Run(o, [SellerSets("ACCEPTED"), SellerSets("PROCESSING"), SellerSets("SHIPPED"), SellerSets("DELIVERED")]).status == Delivered
  {
    var acts := [SellerSets("ACCEPTED"), SellerSets("PROCESSING"), SellerSets("SHIPPED"), SellerSets("DELIVERED")];
    assert acts[1..] == [SellerSets("PROCESSING"), SellerSets("SHIPPED"), SellerSets("DELIVERED")];
    assert acts[1..][1..] == [SellerSets("SHIPPED"), SellerSets("DELIVERED")];
    assert acts[1..][1..][1..] == [SellerSets("DELIVERED")];
  }

  /** A delivered order has no successor: every target is refused. */
  lemma DeliveredAcceptsNothing(o: Order, target: string)
    requires o.status == Delivered
    ensures Advance(o, target).Err?
  {
  }

  // ---------------------------------------------------------------------------
  // Handlers
  // ---------------------------------------------------------------------------

  /** The product can be ordered: it exists, is not deleted and is approved. The
      seller's own approval and deletion are not consulted. */
  predicate Orderable(s: Store, productId: Id)
  {
    productId in s.products && !s.products[productId].isDeleted && s.products[productId].isApproved
  }

  /** `placeOrder`: the caller orders a product; the store supplies the new id `newId`. */
  function PlaceOrder(s: Store, actor: Actor, input: PlaceOrderInput, newId: Id): (r: Result<(Store, Id)>)
    requires newId !in s.orders
    ensures !Orderable(s, input.productId) ==> r == Err(404, "Product not available")
    ensures Orderable(s, input.productId) && s.products[input.productId].sellerId in s.sellers
            && s.sellers[s.products[input.productId].sellerId].userId == actor.userId
            ==> r == Err(400, "You cannot order your own product")
    ensures r.Ok? <==>
      && Orderable(s, input.productId)
      && s.products[input.productId].sellerId in s.sellers
      && s.sellers[s.products[input.productId].sellerId].userId != actor.userId
    ensures r.Ok? ==>
      var (s', id) := r.value;
      && id == newId
      && s'.orders.Keys == s.orders.Keys + {newId}
      && (forall k :: k in s.orders ==> s'.orders[k] == s.orders[k])
      && s'.users == s.users && s'.sellers == s.sellers
      && s'.products == s.products && s'.categories == s.categories
      && s'.orders[newId].status == Pending && !s'.orders[newId].isCancelled
      && s'.orders[newId].buyerId == actor.userId
      && s'.orders[newId].sellerId == s.products[input.productId].sellerId
      && s'.orders[newId].productId == input.productId
      && s'.orders[newId].buyerAddress == input.buyerAddress
      && s'.orders[newId].buyerPhone == input.buyerPhone
      && s'.orders[newId].buyerNotes == input.buyerNotes
  {
    if !Orderable(s, input.productId) then Err(404, "Product not available")
    else
      var product := s.products[input.productId];
      if product.sellerId !in s.sellers then Err(InternalError, InternalMessage)
      else if s.sellers[product.sellerId].userId == actor.userId then
        Err(400, "You cannot order your own product")
      else
        var order := Order(actor.userId, product.sellerId, input.productId,
                           input.buyerAddress, input.buyerPhone, input.buyerNotes, Pending, false);
        Ok((s.(orders := s.orders[newId := order]), newId))
  }

  /** `cancelOrder`: the buyer withdraws one of their own pending orders. */
  function CancelOrder(s: Store, actor: Actor, id: Id): (r: Result<(Store, Order)>)
    ensures id !in s.orders ==> r == Err(404, "Order not found")
    ensures id in s.orders && s.orders[id].buyerId != actor.userId ==>
      r == Err(403, "You can only cancel your own orders")
    ensures id in s.orders && s.orders[id].buyerId == actor.userId && s.orders[id].status != Pending ==>
      r == Err(400, "Only pending orders can be cancelled")
    ensures r.Ok? <==> id in s.orders && s.orders[id].buyerId == actor.userId && s.orders[id].status == Pending
    ensures r.Ok? ==>
      var (s', o) := r.value;
      && OnlyOrderChanged(s, s', id)
      && s'.orders[id] == o
      && o.status == Cancelled && o.isCancelled
      && SameOrderDetails(s.orders[id], o)
  {
    if id !in s.orders then Err(404, "Order not found")
    else
      var o := s.orders[id];
      if o.buyerId != actor.userId then Err(403, "You can only cancel your own orders")
      else match Cancel(o)
        case Ok(o') => Ok((s.(orders := s.orders[id := o']), o'))
        case Err(code, msg) => Err(code, msg)
  }

  /** `updateOrderStatus`: the seller moves one of their orders one step along the table.
      The caller's profile is looked up by user id; its approval is checked by the
      route's `requireSeller`, not here. */
  function UpdateOrderStatus(s: Store, actor: Actor, id: Id, target: string): (r: Result<(Store, Order)>)
    ensures ProfileOf(s, actor.userId).None? ==> r == Err(404, "Seller profile not found")
    ensures ProfileOf(s, actor.userId).Some? && id !in s.orders ==> r == Err(404, "Order not found")
    ensures ProfileOf(s, actor.userId).Some? && id in s.orders
            && s.orders[id].sellerId != ProfileOf(s, actor.userId).value ==>
      r == Err(403, "You can only update your own orders")
    ensures ProfileOf(s, actor.userId).Some? && id in s.orders
            && s.orders[id].sellerId == ProfileOf(s, actor.userId).value && s.orders[id].isCancelled ==>
      r == Err(400, "Cannot update cancelled orders")
    ensures r.Ok? <==>
      && ProfileOf(s, actor.userId).Some? && id in s.orders
      && s.orders[id].sellerId == ProfileOf(s, actor.userId).value
      && !s.orders[id].isCancelled
      && Successor(s.orders[id].status).Some?
      && StatusName(Successor(s.orders[id].status).value) == target
    ensures r.Ok? ==>
      var (s', o) := r.value;
      && OnlyOrderChanged(s, s', id)
      && s'.orders[id] == o
      && Successor(s.orders[id].status) == Some(o.status)
      && o.isCancelled == s.orders[id].isCancelled
      && SameOrderDetails(s.orders[id], o)
  {
    match ProfileOf(s, actor.userId)
    case None => Err(404, "Seller profile not found")
    case Some(profileId) =>
      if id !in s.orders then Err(404, "Order not found")
      else
        var o := s.orders[id];
        if o.sellerId != profileId then Err(403, "You can only update your own orders")
        else match Advance(o, target)
          case Ok(o') => Ok((s.(orders := s.orders[id := o']), o'))
          case Err(code, msg) => Err(code, msg)
  }

  // ---------------------------------------------------------------------------
  // The buyer's order list
  // ---------------------------------------------------------------------------

  datatype Contact = Contact(email: string, phoneNumber: string)

  /** The seller as shown beside an order; `contact` is the seller user's email and phone. */
  datatype SellerCard = SellerCard(
    profileId: Id,
    businessName: string,
    paymentMethods: seq<string>,
    averageShippingCost: real,
    estimatedDeliveryDays: int,
    shippingRegions: string,
    socialLinks: Option<string>,
    contact: Option<Contact>)

  datatype BuyerOrderView = BuyerOrderView(order: Order, seller: Option<SellerCard>)

  function CardOf(s: Store, sellerId: Id): Option<SellerCard>
  {
    if sellerId !in s.sellers then None
    else
      var p := s.sellers[sellerId];
      var contact := if p.userId in s.users
        then Some(Contact(s.users[p.userId].email, s.users[p.userId].phoneNumber))
        else None;
      Some(SellerCard(sellerId, p.businessName, p.paymentMethods, p.averageShippingCost,
                      p.estimatedDeliveryDays, p.shippingRegions, p.socialLinks, contact))
  }

  function WithoutContact(card: Option<SellerCard>): Option<SellerCard>
  {
    if card.Some? then Some(card.value.(contact := None)) else None
  }

  /** `getBuyerOrders`: the caller's orders, optionally of one status. */
  function GetBuyerOrders(s: Store, actor: Actor, status: Option<OrderStatus>): (r: map<Id, BuyerOrderView>)
    ensures forall k :: k in r <==>
      k in s.orders && s.orders[k].buyerId == actor.userId && (status.None? || s.orders[k].status == status.value)
    ensures forall k :: k in r ==> r[k].order == s.orders[k]
    ensures forall k :: k in r && r[k].order.status == Pending ==>
      r[k].seller.Some? ==> r[k].seller.value.contact.None?
    ensures forall k :: k in r && r[k].order.status == Pending ==>
      r[k].seller == WithoutContact(CardOf(s, r[k].order.sellerId))
    ensures forall k :: k in r && r[k].order.status != Pending ==>
      r[k].seller == CardOf(s, r[k].order.sellerId)
  {
    map k | k in s.orders && s.orders[k].buyerId == actor.userId && (status.None? || s.orders[k].status == status.value)
      :: var o := s.orders[k];
         BuyerOrderView(o, if o.status == Pending then WithoutContact(CardOf(s, o.sellerId)) else CardOf(s, o.sellerId))
  }

  /** In a consistent store, every order past PENDING shows the seller user's email and
      phone, and a pending one shows everything else about the seller. */
  lemma ContactShownOncePastPending(s: Store, actor: Actor, status: Option<OrderStatus>, k: Id)
    requires ReferencesResolve(s)
    requires k in GetBuyerOrders(s, actor, status)
    ensures var v := GetBuyerOrders(s, actor, status)[k];
      var p := s.sellers[v.order.sellerId];
      && v.seller.Some?
      && v.seller.value.profileId == v.order.sellerId
      && v.seller.value.businessName == p.businessName
      && (v.order.status != Pending <==> v.seller.value.contact == Some(Contact(s.users[p.userId].email, s.users[p.userId].phoneNumber)))
  {
  }
}

=== FILE: outcomes.dfy ===
/** Optional values and request outcomes shared by every controller. */
module Outcomes {

  /** A value that may be absent: a nullable column, an omitted body field, a failed lookup. */
  datatype Option<+T> = None | Some(value: T)

  /** The outcome of one request handler: its value, or the HTTP status code and
      message of the `AppError` it raised. A handler that fails hands back no store,
      so a failed request leaves the store exactly as it found it. */
  datatype Result<+T> = Ok(value: T) | Err(code: nat, message: string)

  /** The status an unexpected exception reaches the client with: a store write that
      finds no row, or a relation read through a dangling reference. The message is the
      error handler's, which is not part of this model. */
  const InternalError: nat := 500
  const InternalMessage: string := "Internal server error"

}

=== FILE: pagination.dfy ===
/** Offset pagination as the listing handlers compute it: the rows skipped are
    `(page - 1) * limit`, at most `limit` rows are taken, and the reported page count
    is `Math.ceil(total / limit)`. */
module Pagination {

  /** The `pagination` object of a listing response. */
  datatype Page = Page(total: nat, page: int, limit: int, totalPages: nat)

  /** Rows skipped before page `page`. */
  function Skip(page: int, limit: int): int
  {
    (page - 1) * limit
  }

  /** `Math.ceil(total / limit)`: the least page count whose pages hold `total` rows. */
  function CeilDiv(total: nat, limit: nat): (pages: nat)
    requires limit > 0
    ensures pages * limit >= total
    ensures pages > 0 ==> (pages - 1) * limit < total
  {
    var q := total / limit;
    if q * limit == total then q else q + 1
  }

  /** The pagination block reported for `total` matching rows. */
  function Paginate(total: nat, page: int, limit: int): (r: Page)
    requires page >= 1 && limit > 0
    ensures r.total == total && r.page == page && r.limit == limit
    ensures r.totalPages * limit >= total
    ensures r.totalPages > 0 ==> Skip(r.totalPages, limit) < total
  {
    Page(total, page, limit, CeilDiv(total, limit))
  }

  /** How many of `total` rows page `page` returns (`skip`, then `take: limit`). */
  function PageSize(total: nat, page: int, limit: int): (n: nat)
    requires page >= 1 && limit > 0
    ensures n <= limit
    ensures n > 0 <==> Skip(page, limit) < total
  {
    var skip := Skip(page, limit);
    if skip >= total then 0
    else if total - skip < limit then total - skip
    else limit
  }

  /** Rows returned by pages 1 through `n` together. */
  function Covered(total: nat, limit: int, n: nat): nat
    requires limit > 0
  {
    if n == 0 then 0 else Covered(total, limit, n - 1) + PageSize(total, n, limit)
  }

  /** A page number at or below the reported page count is exactly one that returns rows. */
  lemma {:induction false} PageHasRowsIffWithinCount(total: nat, page: int, limit: int)
    requires page >= 1 && limit > 0
    ensures PageSize(total, page, limit) > 0 <==> page <= Paginate(total, page, limit).totalPages
  {
    var pages := CeilDiv(total, limit);
    if page <= pages {
      if Skip(page, limit) >= total {
        MulMonotone(page - 1, pages - 1, limit);
      }
    } else {
      MulMonotone(pages, page - 1, limit);
    }
  }

  /** Pages 1..n together return the first `min(total, n * limit)` rows. */
  lemma {:induction false} CoveredIsPrefix(total: nat, limit: int, n: nat)
    requires limit > 0
    ensures Covered(total, limit, n) == if n * limit <= total then n * limit else total
  {
    if n > 0 {
      CoveredIsPrefix(total, limit, n - 1);
      assert (n - 1) * limit + limit == n * limit;
      if (n - 1) * limit >= total {
        assert n * limit >= total;
      }
    }
  }

  /** Walking pages 1 through `totalPages` returns every matching row exactly once. */
  lemma {:induction false} PagesPartitionRows(total: nat, limit: int)
    requires limit > 0
    ensures Covered(total, limit, CeilDiv(total, limit)) == total
  {
    CoveredIsPrefix(total, limit, CeilDiv(total, limit));
  }

  lemma MulMonotone(a: int, b: int, c: int)
    requires 0 <= a <= b && c > 0
    ensures a * c <= b * c
  {
  }
}

=== FILE: product_controller.dfy ===
/** The seller-facing product handlers and the public catalogue: creation with its image
    gallery, the filtered listing, the single-product view with its approval gate, and
    the owner's edit (which sends the product back for approval) and deletion. */
module ProductController {
  import opened Constants
  import opened Outcomes
  import opened Entities
  import opened Validation
  import opened Strings
  import opened Pagination

  /** An image as the image host reports it once uploaded. */
  datatype Upload = Upload(url: string, publicId: string)

  /** The gallery of a new product: each upload keeps its position as its `order`. */
  function Gallery(uploads: seq<Upload>): (images: seq<Image>)
    ensures |images| == |uploads|
    ensures forall i :: 0 <= i < |uploads| ==>
      images[i].url == uploads[i].url && images[i].publicId == uploads[i].publicId && images[i].order == i
  {
    if |uploads| == 0 then []
    else
      var last := |uploads| - 1;
      Gallery(uploads[..last]) + [Image(uploads[last].url, uploads[last].publicId, last)]
  }

  const MaxImages: nat := 5

  /** The host took every file: each answer is an upload, none a refusal. */
  predicate AllHosted(answers: seq<Option<Upload>>)
  {
    forall i :: 0 <= i < |answers| ==> answers[i].Some?
  }

  /** The uploads behind answers the host all accepted, in file order. */
  function Hosted(answers: seq<Option<Upload>>): (uploads: seq<Upload>)
    requires AllHosted(answers)
    ensures |uploads| == |answers|
    ensures forall i :: 0 <= i < |answers| ==> answers[i] == Some(uploads[i])
  {
    seq(|answers|, i requires 0 <= i < |answers| => answers[i].value)
  }

  /** The profile the caller acts through, if they own one and it is approved. */
  function ApprovedProfileOf(s: Store, userId: Id): (r: Option<Id>)
    ensures r.Some? ==> r == ProfileOf(s, userId) && s.sellers[r.value].isApproved
    ensures r.None? ==> ProfileOf(s, userId).None? || !s.sellers[ProfileOf(s, userId).value].isApproved
  {
    var p := ProfileOf(s, userId);
    if p.Some? && s.sellers[p.value].isApproved then p else None
  }

  /** `createProduct`: between one and five images, an approved profile (its deletion is
      not consulted) and an existing category; the product inherits the seller's type and
      waits for approval. `answers` are the image host's answers for the files, `None`
      where it refused one; the uploads all run after the guards, and a single refusal
      fails the request with a 500 before anything is written. */
  function CreateProduct(s: Store, actor: Actor, input: ProductInput, answers: seq<Option<Upload>>, newId: Id)
    : (r: Result<(Store, Id)>)
    requires newId !in s.products
    ensures |answers| == 0 ==> r == Err(400, "At least one product image is required")
    ensures |answers| > MaxImages ==> r == Err(400, "Maximum 5 images allowed per product")
    ensures 1 <= |answers| <= MaxImages && ApprovedProfileOf(s, actor.userId).None? ==>
      r == Err(403, "Seller account not approved")
    ensures (1 <= |answers| <= MaxImages && ApprovedProfileOf(s, actor.userId).Some? &&
             input.categoryId !in s.categories) ==> r == Err(404, "Category not found")
    ensures (1 <= |answers| <= MaxImages && ApprovedProfileOf(s, actor.userId).Some? &&
             input.categoryId in s.categories && !AllHosted(answers)) ==>
      r == Err(InternalError, "Image upload failed")
    ensures r.Ok? <==>
      && 1 <= |answers| <= MaxImages && ApprovedProfileOf(s, actor.userId).Some? && input.categoryId in s.categories
      && AllHosted(answers)
    ensures r.Ok? ==>
      var (s', id) := r.value;
      var sid := ApprovedProfileOf(s, actor.userId).value;
      && id == newId
      && s'.products.Keys == s.products.Keys + {newId}
      && (forall k :: k in s.products ==> s'.products[k] == s.products[k])
      && s'.users == s.users && s'.sellers == s.sellers && s'.orders == s.orders && s'.categories == s.categories
      && s'.products[id].sellerId == sid
      && s'.products[id].categoryId == input.categoryId
      && s'.products[id].name == input.name
      && s'.products[id].description == input.description
      && s'.products[id].price == input.price
      && s'.products[id].productType == s.sellers[sid].sellerType
      && s'.products[id].images == Gallery(Hosted(answers))
      && !s'.products[id].isApproved && !s'.products[id].isDeleted && s'.products[id].deletedAt.None?
  {
    if |answers| == 0 then Err(400, "At least one product image is required")
    else if |answers| > MaxImages then Err(400, "Maximum 5 images allowed per product")
    else
      var profile := ApprovedProfileOf(s, actor.userId);
      if profile.None? then Err(403, "Seller account not approved")
      else if input.categoryId !in s.categories then Err(404, "Category not found")
      else if !AllHosted(answers) then Err(InternalError, "Image upload failed")
      else
        var sid := profile.value;
        var p := Product(sid, input.categoryId, input.name, input.description, input.price,
                         s.sellers[sid].sellerType, Gallery(Hosted(answers)), false, false, None);
        Ok((s.(products := s.products[newId := p]), newId))
  }

  /** The query string of the public listing; an empty `search` is no search, and
      `productType` filters only when it names a seller type. */
  datatype ProductQuery = ProductQuery(
    search: Option<string>,
    categoryId: Option<Id>,
    minPrice: Option<real>,
    maxPrice: Option<real>,
    productType: Option<string>)

  const NoFilter: ProductQuery := ProductQuery(None, None, None, None, None)

  /** Published: approved and not deleted. Only these reach the public. */
  predicate Published(p: Product)
  {
    p.isApproved && !p.isDeleted
  }

  /** The product's name or its seller's business name contains the search text, ignoring case. */
  predicate MatchesSearch(s: Store, p: Product, text: string)
  {
    || ContainsInsensitive(p.name, text)
    || (p.sellerId in s.sellers && ContainsInsensitive(s.sellers[p.sellerId].businessName, text))
  }

  predicate MatchesQuery(s: Store, p: Product, q: ProductQuery)
  {
    && (q.search.Some? && |q.search.value| > 0 ==> MatchesSearch(s, p, q.search.value))
    && (q.categoryId.Some? ==> p.categoryId == q.categoryId.value)
    && (q.minPrice.Some? ==> p.price >= q.minPrice.value)
    && (q.maxPrice.Some? ==> p.price <= q.maxPrice.value)
    && (q.productType.Some? && ParseSellerType(q.productType.value).Some? ==>
          p.productType == ParseSellerType(q.productType.value))
  }

  /** The rows a listing matches, with the pagination block over their count. One page
      is a `createdAt`-ordered window of `products`. */
  datatype ProductListing = ProductListing(products: map<Id, Product>, pagination: Page)

  /** `getAllProducts` (public). */
  function ListProducts(s: Store, q: ProductQuery, page: int, limit: int): (r: ProductListing)
    requires page >= 1 && limit > 0
    ensures forall k :: k in r.products ==> k in s.products && r.products[k] == s.products[k]
    ensures forall k :: k in r.products ==> Published(s.products[k])
    ensures forall k :: k in s.products && Published(s.products[k]) && MatchesQuery(s, s.products[k], q) ==>
      k in r.products
    ensures forall k :: k in r.products ==>
      && (q.categoryId.Some? ==> r.products[k].categoryId == q.categoryId.value)
      && (q.minPrice.Some? ==> r.products[k].price >= q.minPrice.value)
      && (q.maxPrice.Some? ==> r.products[k].price <= q.maxPrice.value)
      && (q.search.Some? && |q.search.value| > 0 ==> MatchesSearch(s, r.products[k], q.search.value))
      && (q.productType.Some? && ParseSellerType(q.productType.value).Some? ==>
            r.products[k].productType == ParseSellerType(q.productType.value))
    ensures r.pagination.total == |r.products| && r.pagination.totalPages == CeilDiv(|r.products|, limit)
  {
    var rows := map k | k in s.products && Published(s.products[k]) && MatchesQuery(s, s.products[k], q)
      :: s.products[k];
    ProductListing(rows, Paginate(|rows|, page, limit))
  }

  /** Without filters the public listing is exactly the published catalogue. */
  lemma UnfilteredListingIsPublished(s: Store, page: int, limit: int, k: Id)
    requires page >= 1 && limit > 0
    ensures k in ListProducts(s, NoFilter, page, limit).products <==> k in s.products && Published(s.products[k])
  {
  }

  /** A `productType` that names no seller type filters nothing. */
  lemma UnknownTypeFiltersNothing(s: Store, q: ProductQuery, name: string, page: int, limit: int)
    requires page >= 1 && limit > 0 && ParseSellerType(name).None?
    ensures ListProducts(s, q.(productType := Some(name)), page, limit) == ListProducts(s, q.(productType := None), page, limit)
  {
    var a := ListProducts(s, q.(productType := Some(name)), page, limit);
    var b := ListProducts(s, q.(productType := None), page, limit);
    assert a.products == b.products;
  }

  /** `getProductById`: deleted products are not found; an unapproved one is shown only to
      an admin or to the viewer whose profile owns it. The route does not authenticate, so
      in the running system the viewer is always absent; the owner lookup then runs with no
      key, which the store rejects, and the request fails with the error handler's 500. */
  function GetProductById(s: Store, viewer: Option<Actor>, id: Id): (r: Result<Product>)
    ensures id !in s.products || s.products[id].isDeleted ==> r == Err(404, "Product not found")
    ensures (id in s.products && !s.products[id].isDeleted && !s.products[id].isApproved && viewer.None?) ==>
      r == Err(InternalError, InternalMessage)
    ensures r.Err? ==> r == Err(404, "Product not found") || (viewer.None? && r == Err(InternalError, InternalMessage))
    ensures r.Ok? ==> id in s.products && r.value == s.products[id] && !r.value.isDeleted
    ensures r.Ok? <==>
      && id in s.products && !s.products[id].isDeleted
      && (|| s.products[id].isApproved
          || (viewer.Some? && viewer.value.role == Admin)
          || (viewer.Some? && ProfileOf(s, viewer.value.userId) == Some(s.products[id].sellerId)))
  {
    if id !in s.products || s.products[id].isDeleted then Err(404, "Product not found")
    else
      var p := s.products[id];
      if !p.isApproved && !(viewer.Some? && viewer.value.role == Admin) then
        if viewer.None? then Err(InternalError, InternalMessage)
        else
          var profile := ProfileOf(s, viewer.value.userId);
          if profile.None? || profile.value != p.sellerId then Err(404, "Product not found")
          else Ok(p)
      else Ok(p)
  }

  /** Whoever asks, a product in the public listing can be opened, and an anonymous
      visitor can open nothing that is not published. */
  lemma ListedIsViewable(s: Store, q: ProductQuery, page: int, limit: int, viewer: Option<Actor>, k: Id)
    requires page >= 1 && limit > 0 && k in ListProducts(s, q, page, limit).products
    ensures GetProductById(s, viewer, k) == Ok(s.products[k])
    ensures GetProductById(s, None, k).Ok?
  {
  }

  lemma AnonymousSeesOnlyPublished(s: Store, id: Id)
    ensures GetProductById(s, None, id).Ok? <==> id in s.products && Published(s.products[id])
  {
  }

  /** The caller's profile owns the live product `id`: the guards `updateProduct` and
      `deleteProduct` share, with their three refusals in order. */
  function OwnedLiveProduct(s: Store, actor: Actor, id: Id, refusal: string): (r: Result<Id>)
    ensures ProfileOf(s, actor.userId).None? ==> r == Err(404, "Seller profile not found")
    ensures ProfileOf(s, actor.userId).Some? && (id !in s.products || s.products[id].isDeleted) ==>
      r == Err(404, "Product not found")
    ensures r.Ok? <==>
      && ProfileOf(s, actor.userId).Some? && id in s.products && !s.products[id].isDeleted
      && s.products[id].sellerId == ProfileOf(s, actor.userId).value
    ensures r.Ok? ==> r.value == s.products[id].sellerId
    ensures r.Err? && ProfileOf(s, actor.userId).Some? && id in s.products && !s.products[id].isDeleted ==>
      r == Err(403, refusal)
  {
    var profile := ProfileOf(s, actor.userId);
    if profile.None? then Err(404, "Seller profile not found")
    else if id !in s.products || s.products[id].isDeleted then Err(404, "Product not found")
    else if s.products[id].sellerId != profile.value then Err(403, refusal)
    else Ok(profile.value)
  }

  /** JavaScript truthiness of the update's fields: an empty string and a zero price are
      no change. */
  predicate SetsText(field: Option<string>)
  {
    field.Some? && |field.value| > 0
  }

  predicate SetsPrice(field: Option<real>)
  {
    field.Some? && field.value != 0.0
  }

  predicate ChangesSomething(u: ProductUpdate)
  {
    SetsText(u.name) || SetsText(u.description) || SetsPrice(u.price) || u.categoryId.Some?
  }

  /** `updateProduct`: the owner's edit of the truthy fields; any accepted edit sends the
      product back to the approval queue. */
  function UpdateProduct(s: Store, actor: Actor, id: Id, u: ProductUpdate): (r: Result<(Store, Product)>)
    ensures OwnedLiveProduct(s, actor, id, "You can only update your own products").Err? ==>
      var e := OwnedLiveProduct(s, actor, id, "You can only update your own products");
      r == Err(e.code, e.message)
    ensures (OwnedLiveProduct(s, actor, id, "You can only update your own products").Ok? &&
             u.categoryId.Some? && u.categoryId.value !in s.categories) ==> r == Err(404, "Category not found")
    ensures (OwnedLiveProduct(s, actor, id, "You can only update your own products").Ok? &&
             (u.categoryId.Some? ==> u.categoryId.value in s.categories) &&
             !ChangesSomething(u)) ==> r == Err(400, "No fields to update")
    ensures r.Ok? <==>
      && OwnedLiveProduct(s, actor, id, "You can only update your own products").Ok?
      && ChangesSomething(u)
      && (u.categoryId.Some? ==> u.categoryId.value in s.categories)
    ensures r.Ok? ==>
      var (s', p) := r.value;
      && OnlyProductChanged(s, s', id)
      && s'.products[id] == p
      && !p.isApproved && !p.isDeleted
      && p.sellerId == s.products[id].sellerId && p.images == s.products[id].images
      && p.productType == s.products[id].productType
      && p.name == (if SetsText(u.name) then u.name.value else s.products[id].name)
      && p.description == (if SetsText(u.description) then u.description.value else s.products[id].description)
      && p.price == (if SetsPrice(u.price) then u.price.value else s.products[id].price)
      && p.categoryId == (if u.categoryId.Some? then u.categoryId.value else s.products[id].categoryId)
  {
    var owner := OwnedLiveProduct(s, actor, id, "You can only update your own products");
    if owner.Err? then Err(owner.code, owner.message)
    else if u.categoryId.Some? && u.categoryId.value !in s.categories then Err(404, "Category not found")
    else if !ChangesSomething(u) then Err(400, "No fields to update")
    else
      var p := s.products[id];
      var p' := p.(
        name := if SetsText(u.name) then u.name.value else p.name,
        description := if SetsText(u.description) then u.description.value else p.description,
        price := if SetsPrice(u.price) then u.price.value else p.price,
        categoryId := if u.categoryId.Some? then u.categoryId.value else p.categoryId,
        isApproved := false);
      Ok((s.(products := s.products[id := p']), p'))
  }

  /** An edited product leaves the public catalogue until an admin approves it again. */
  lemma EditUnpublishes(s: Store, actor: Actor, id: Id, u: ProductUpdate, q: ProductQuery, page: int, limit: int)
    requires page >= 1 && limit > 0 && UpdateProduct(s, actor, id, u).Ok?
    ensures id !in ListProducts(UpdateProduct(s, actor, id, u).value.0, q, page, limit).products
    ensures GetProductById(UpdateProduct(s, actor, id, u).value.0, None, id).Err?
  {
  }

  /** `deleteProduct`: the owner's soft delete of a live product. */
  function DeleteProduct(s: Store, actor: Actor, id: Id, now: Time): (r: Result<Store>)
    ensures r.Err? ==>
      var e := OwnedLiveProduct(s, actor, id, "You can only delete your own products");
      e.Err? && r == Err(e.code, e.message)
    ensures r.Ok? <==> OwnedLiveProduct(s, actor, id, "You can only delete your own products").Ok?
    ensures r.Ok? ==>
      && OnlyProductChanged(s, r.value, id)
      && r.value.products[id] == SoftDeletedProduct(s.products[id], now)
  {
    var owner := OwnedLiveProduct(s, actor, id, "You can only delete your own products");
    if owner.Err? then Err(owner.code, owner.message)
    else Ok(s.(products := s.products[id := SoftDeletedProduct(s.products[id], now)]))
  }

  /** A deleted product is gone for everyone, and deleting it again is refused. */
  lemma DeletedIsGone(s: Store, actor: Actor, id: Id, now: Time, viewer: Option<Actor>, later: Time)
    requires DeleteProduct(s, actor, id, now).Ok?
    ensures GetProductById(DeleteProduct(s, actor, id, now).value, viewer, id) == Err(404, "Product not found")
    ensures DeleteProduct(DeleteProduct(s, actor, id, now).value, actor, id, later) == Err(404, "Product not found")
  {
  }
}

=== FILE: scenarios.dfy ===
/** How the handlers and the guards meet: what a ban or a removal does to the next
    request, what approval opens, and the seller's life from application to removal. */
module Scenarios {
  import opened Constants
  import opened Outcomes
  import opened Entities
  import opened Validation
  import AuthMiddleware
  import AuthController
  import AdminUserController
  import AdminSellerController
  import SellerController
  import UserController
  import ProductController

  /** A banned user's tokens stop working and their password no longer logs them in. */
  lemma BanLocksOut(s: Store, id: Id, now: Time, header: Option<string>, verify: string -> AuthMiddleware.TokenCheck,
                    password: string, matches: (string, string) -> bool, sign: AuthController.Claims -> string)
    requires UniqueEmails(s) && AdminUserController.BanUser(s, id, now).Ok?
    requires AuthMiddleware.BearerToken(header).Some?
    requires verify(AuthMiddleware.BearerToken(header).value) == AuthMiddleware.Valid(id)
    ensures var s' := AdminUserController.BanUser(s, id, now).value;
      && AuthMiddleware.Authenticate(s', header, verify) == Err(401, "User not found or deactivated")
      && AuthController.Login(s', LoginInput(s.users[id].email, password), matches, sign)
           == Err(403, "Account has been deactivated")
  {
    var s' := AdminUserController.BanUser(s, id, now).value;
    assert s'.users[id].email == s.users[id].email;
    assert s'.users.Keys == s.users.Keys;
    forall k | k in s'.users && s'.users[k].email == s.users[id].email ensures k == id {
      assert s.users[k].email == s'.users[k].email;
    }
  }

  /** Once approved, the profile's owner passes `requireSeller` with their next token,
      as long as the profile was not deleted. */
  lemma ApprovalOpensSellerRoutes(s: Store, id: Id, sellerType: Option<string>, header: Option<string>,
                                  verify: string -> AuthMiddleware.TokenCheck)
    requires OneProfilePerUser(s) && AdminSellerController.ApproveSeller(s, id, sellerType).Ok?
    requires !s.sellers[id].isDeleted && !s.users[s.sellers[id].userId].isDeleted
    requires AuthMiddleware.BearerToken(header).Some?
    requires verify(AuthMiddleware.BearerToken(header).value) == AuthMiddleware.Valid(s.sellers[id].userId)
    ensures var s' := AdminSellerController.ApproveSeller(s, id, sellerType).value.0;
      var a := AuthMiddleware.Authenticate(s', header, verify);
      && a.Ok? && a.value.role == Seller
      && AuthMiddleware.RequireSeller(s', a.value) == Ok(id)
  {
    var s' := AdminSellerController.ApproveSeller(s, id, sellerType).value.0;
    assert OneProfilePerUser(s') by {
      forall x, y | x in s'.sellers && y in s'.sellers && s'.sellers[x].userId == s'.sellers[y].userId
        ensures x == y
      {
        assert s.sellers[x].userId == s.sellers[y].userId;
      }
    }
    ProfileOfFindsTheProfile(s', s.sellers[id].userId, id);
  }

  /** Whoever passes `requireSeller` also passes the approval guard of `createProduct`. */
  lemma SellerGateCoversCreation(s: Store, actor: Actor)
    requires AuthMiddleware.RequireSeller(s, actor).Ok?
    ensures ProductController.ApprovedProfileOf(s, actor.userId) == Some(AuthMiddleware.RequireSeller(s, actor).value)
  {
  }

  /** The seller's life: apply, be approved as FAN_MADE, be retyped OFFICIAL, be removed.
      Each step succeeds, the type follows the admin's choices, and after removal the
      user can no longer authenticate. */
  lemma SellerLifecycle(s: Store, actor: Actor, a: SellerApplication, pid: Id, now: Time,
                        header: Option<string>, verify: string -> AuthMiddleware.TokenCheck)
    requires OneProfilePerUser(s) && actor.userId in s.users && ProfileOf(s, actor.userId).None?
    requires pid !in s.sellers
    requires AuthMiddleware.BearerToken(header).Some?
    requires verify(AuthMiddleware.BearerToken(header).value) == AuthMiddleware.Valid(actor.userId)
    ensures var s1 := SellerController.Apply(s, actor, a, pid);
      && s1.Ok? && s1.value.1 == pid
      && var s2 := AdminSellerController.ApproveSeller(s1.value.0, pid, Some("FAN_MADE"));
      && s2.Ok? && s2.value.1.sellerType == Some(FanMade) && s2.value.1.isApproved
      && var s3 := AdminSellerController.ChangeSellerType(s2.value.0, pid, Some("OFFICIAL"));
      && s3.Ok? && s3.value.0.sellers[pid].sellerType == Some(Official) && s3.value.0.sellers[pid].isApproved
      && var s4 := AdminSellerController.RemoveSeller(s3.value.0, pid, now);
      && s4.Ok? && s4.value.sellers[pid].isDeleted
      && AuthMiddleware.Authenticate(s4.value, header, verify) == Err(401, "User not found or deactivated")
  {
    var s1 := SellerController.Apply(s, actor, a, pid).value.0;
    assert s1.sellers[pid].userId == actor.userId;
    var s2 := AdminSellerController.ApproveSeller(s1, pid, Some("FAN_MADE")).value.0;
    var s3 := AdminSellerController.ChangeSellerType(s2, pid, Some("OFFICIAL")).value.0;
    assert s3.sellers[pid].userId == actor.userId;
  }

  /** An accepted application joins the pending queue as the applicant's untyped profile,
      and the rest of the queue is as it was. */
  lemma ApplicationJoinsQueue(s: Store, actor: Actor, a: SellerApplication, newId: Id)
    requires newId !in s.sellers && SellerController.Apply(s, actor, a, newId).Ok?
    ensures var before := AdminSellerController.GetPendingSellers(s);
      var after := AdminSellerController.GetPendingSellers(SellerController.Apply(s, actor, a, newId).value.0);
      && after.Keys == before.Keys + {newId}
      && after[newId].userId == actor.userId && after[newId].sellerType.None?
      && (forall k :: k in before ==> after[k] == before[k])
  {
    var s' := SellerController.Apply(s, actor, a, newId).value.0;
    var before := AdminSellerController.GetPendingSellers(s);
    var after := AdminSellerController.GetPendingSellers(s');
    forall k
      ensures k in after <==> k in before || k == newId
    {
      if k in s.sellers {
        assert s'.sellers[k] == s.sellers[k];
      }
    }
  }

  /** Right after registering, the new user's own profile shows what they registered
      with, as a BUYER. */
  lemma RegisteredUserSeesThemselves(s: Store, input: AccountInput, hash: string -> string, newId: Id, actor: Actor)
    requires newId !in s.users && AuthController.Register(s, input, hash, newId).Ok?
    requires actor.userId == newId
    ensures var (s', info) := AuthController.Register(s, input, hash, newId).value;
      var me := AuthController.GetMe(s', actor);
      && me == Ok(info)
      && me.value.email == input.email && me.value.fullName == input.fullName
      && me.value.phoneNumber == input.phoneNumber && me.value.address == input.address
      && me.value.role == Buyer && !me.value.isDeleted && me.value.deletedAt.None?
  {
  }

  /** After a profile edit, the caller's own profile shows the edit's answer: the fields
      the edit set, and every other field as it was shown before. */
  lemma ProfileEditShowsOnMe(s: Store, actor: Actor, u: ProfileUpdate)
    requires UserController.UpdateProfile(s, actor, u).Ok?
    ensures var (s', info) := UserController.UpdateProfile(s, actor, u).value;
      var me := AuthController.GetMe(s', actor);
      var was := AuthController.GetMe(s, actor);
      && was.Ok? && me == Ok(info)
      && me.value.fullName == (if UserController.Sets(u.fullName) then u.fullName.value else was.value.fullName)
      && me.value.phoneNumber == (if UserController.Sets(u.phoneNumber) then u.phoneNumber.value else was.value.phoneNumber)
      && me.value.address == (if UserController.Sets(u.address) then u.address.value else was.value.address)
      && me.value.(fullName := was.value.fullName, phoneNumber := was.value.phoneNumber, address := was.value.address)
         == was.value
  {
  }
}

=== FILE: seller_controller.dfy ===
/** A user's own seller profile: the application and the edit of its whitelisted fields. */
module SellerController {
  import opened Outcomes
  import opened Entities
  import opened Validation

  /** `applyToBecomeSeller`: any existing profile of the caller refuses the application,
      a deleted one included; the new profile waits for approval, untyped. */
  function Apply(s: Store, actor: Actor, a: SellerApplication, newId: Id): (r: Result<(Store, Id)>)
    requires newId !in s.sellers
    ensures ProfileOf(s, actor.userId).Some? && s.sellers[ProfileOf(s, actor.userId).value].isApproved ==>
      r == Err(400, "You are already an approved seller")
    ensures ProfileOf(s, actor.userId).Some? && !s.sellers[ProfileOf(s, actor.userId).value].isApproved ==>
      r == Err(400, "Your seller application is pending approval")
    ensures r.Ok? <==> ProfileOf(s, actor.userId).None? && actor.userId in s.users
    ensures r.Ok? ==>
      var (s', id) := r.value;
      && id == newId
      && s'.sellers.Keys == s.sellers.Keys + {newId}
      && (forall k :: k in s.sellers ==> s'.sellers[k] == s.sellers[k])
      && s'.users == s.users && s'.products == s.products
      && s'.orders == s.orders && s'.categories == s.categories
      && s'.sellers[id].userId == actor.userId
      && !s'.sellers[id].isApproved && s'.sellers[id].sellerType.None?
      && !s'.sellers[id].isDeleted && s'.sellers[id].deletedAt.None?
      && s'.sellers[id].businessName == a.businessName
      && s'.sellers[id].businessDescription == a.businessDescription
      && s'.sellers[id].paymentMethods == a.paymentMethods
      && s'.sellers[id].averageShippingCost == a.averageShippingCost
      && s'.sellers[id].estimatedDeliveryDays == a.estimatedDeliveryDays
      && s'.sellers[id].shippingRegions == a.shippingRegions
      && s'.sellers[id].socialLinks == a.socialLinks
  {
    var existing := ProfileOf(s, actor.userId);
    if existing.Some? then
      if s.sellers[existing.value].isApproved then Err(400, "You are already an approved seller")
      else Err(400, "Your seller application is pending approval")
    else if actor.userId !in s.users then Err(InternalError, InternalMessage)
    else
      var p := SellerProfile(actor.userId, a.businessName, a.businessDescription, a.paymentMethods,
                             a.averageShippingCost, a.estimatedDeliveryDays, a.shippingRegions,
                             a.socialLinks, false, None, false, None);
      Ok((s.(sellers := s.sellers[newId := p]), newId))
  }

  /** An application neither makes its author a seller nor lets them apply twice. */
  lemma ApplicationWaits(s: Store, actor: Actor, a: SellerApplication, newId: Id, again: Id)
    requires newId !in s.sellers && OneProfilePerUser(s) && Apply(s, actor, a, newId).Ok?
    requires again !in Apply(s, actor, a, newId).value.0.sellers
    ensures var s' := Apply(s, actor, a, newId).value.0;
      && OneProfilePerUser(s')
      && s'.users[actor.userId].role == s.users[actor.userId].role
      && Apply(s', actor, a, again) == Err(400, "Your seller application is pending approval")
  {
    var s' := Apply(s, actor, a, newId).value.0;
    ProfileOfFindsTheProfile(s', actor.userId, newId);
  }

  predicate UpdatesNothing(u: SellerProfileUpdate)
  {
    && u.businessName.None? && u.businessDescription.None? && u.paymentMethods.None?
    && u.averageShippingCost.None? && u.estimatedDeliveryDays.None? && u.shippingRegions.None?
    && u.socialLinks.None?
  }

  function Pick<T>(field: Option<T>, current: T): T
  {
    if field.Some? then field.value else current
  }

  /** `updateSellerProfile`: copies each of the seven whitelisted fields that is present.
      Approval, type, owner and deletion are outside the whitelist and never change. */
  function UpdateSellerProfile(s: Store, actor: Actor, u: SellerProfileUpdate): (r: Result<(Store, SellerProfile)>)
    ensures ProfileOf(s, actor.userId).None? ==> r == Err(404, "Seller profile not found")
    ensures ProfileOf(s, actor.userId).Some? && UpdatesNothing(u) ==> r == Err(400, "No fields to update")
    ensures r.Ok? <==> ProfileOf(s, actor.userId).Some? && !UpdatesNothing(u)
    ensures r.Ok? ==>
      var (s', p') := r.value;
      var id := ProfileOf(s, actor.userId).value;
      var p := s.sellers[id];
      && OnlyProfileChanged(s, s', id)
      && s'.sellers[id] == p'
      && p'.userId == p.userId && p'.isApproved == p.isApproved && p'.sellerType == p.sellerType
      && p'.isDeleted == p.isDeleted && p'.deletedAt == p.deletedAt
      && (u.businessName.Some? ==> p'.businessName == u.businessName.value)
      && (u.businessName.None? ==> p'.businessName == p.businessName)
      && (u.businessDescription.Some? ==> p'.businessDescription == u.businessDescription.value)
      && (u.businessDescription.None? ==> p'.businessDescription == p.businessDescription)
      && (u.paymentMethods.Some? ==> p'.paymentMethods == u.paymentMethods.value)
      && (u.paymentMethods.None? ==> p'.paymentMethods == p.paymentMethods)
      && (u.averageShippingCost.Some? ==> p'.averageShippingCost == u.averageShippingCost.value)
      && (u.averageShippingCost.None? ==> p'.averageShippingCost == p.averageShippingCost)
      && (u.estimatedDeliveryDays.Some? ==> p'.estimatedDeliveryDays == u.estimatedDeliveryDays.value)
      && (u.estimatedDeliveryDays.None? ==> p'.estimatedDeliveryDays == p.estimatedDeliveryDays)
      && (u.shippingRegions.Some? ==> p'.shippingRegions == u.shippingRegions.value)
      && (u.shippingRegions.None? ==> p'.shippingRegions == p.shippingRegions)
      && (u.socialLinks.Some? ==> p'.socialLinks == u.socialLinks)
      && (u.socialLinks.None? ==> p'.socialLinks == p.socialLinks)
  {
    var found := ProfileOf(s, actor.userId);
    if found.None? then Err(404, "Seller profile not found")
    else if UpdatesNothing(u) then Err(400, "No fields to update")
    else
      var p := s.sellers[found.value];
      var p' := p.(
        businessName := Pick(u.businessName, p.businessName),
        businessDescription := Pick(u.businessDescription, p.businessDescription),
        paymentMethods := Pick(u.paymentMethods, p.paymentMethods),
        averageShippingCost := Pick(u.averageShippingCost, p.averageShippingCost),
        estimatedDeliveryDays := Pick(u.estimatedDeliveryDays, p.estimatedDeliveryDays),
        shippingRegions := Pick(u.shippingRegions, p.shippingRegions),
        socialLinks := if u.socialLinks.Some? then u.socialLinks else p.socialLinks);
      Ok((s.(sellers := s.sellers[found.value := p']), p'))
  }

  /** Editing the same fields twice is editing them once. */
  lemma ProfileEditIdempotent(s: Store, actor: Actor, u: SellerProfileUpdate)
    requires OneProfilePerUser(s) && UpdateSellerProfile(s, actor, u).Ok?
    ensures var s' := UpdateSellerProfile(s, actor, u).value.0;
      UpdateSellerProfile(s', actor, u).Ok? && UpdateSellerProfile(s', actor, u).value.0 == s'
  {
    var s' := UpdateSellerProfile(s, actor, u).value.0;
    var id := ProfileOf(s, actor.userId).value;
    ProfileOfFindsTheProfile(s', actor.userId, id);
    assert s'.sellers[id := UpdateSellerProfile(s', actor, u).value.1] == s'.sellers;
  }
}

=== FILE: strings.dfy ===
/** The few string operations the handlers rely on: `startsWith`, `split(' ')`,
    case-insensitive `contains`, and the ascending order `orderBy: { name: 'asc' }`. */
module Strings {

  predicate StartsWith(s: string, prefix: string)
  {
    |prefix| <= |s| && s[..|prefix|] == prefix
  }

  /** `s.split(sep)`: the maximal separator-free pieces, empty ones included. */
  function Split(s: string, sep: char): (parts: seq<string>)
    ensures |parts| >= 1
    ensures forall i :: 0 <= i < |parts| ==> sep !in parts[i]
  {
    if |s| == 0 then [""]
    else
      var rest := Split(s[1..], sep);
      if s[0] == sep then [""] + rest
      else [[s[0]] + rest[0]] + rest[1..]
  }

  /** `parts.join(sep)`. */
  function Join(parts: seq<string>, sep: char): string
    requires |parts| >= 1
  {
    if |parts| == 1 then parts[0] else parts[0] + [sep] + Join(parts[1..], sep)
  }

  /** Splitting loses nothing: joining the pieces back gives the original string. */
  lemma {:induction false} JoinSplit(s: string, sep: char)
    ensures Join(Split(s, sep), sep) == s
  {
    if |s| > 0 {
      var rest := Split(s[1..], sep);
      JoinSplit(s[1..], sep);
      if s[0] == sep {
        assert Split(s, sep) == [""] + rest;
        assert ([""] + rest)[1..] == rest;
      } else {
        var parts := Split(s, sep);
        assert parts == [[s[0]] + rest[0]] + rest[1..];
        if |rest| == 1 {
          assert parts == [[s[0]] + rest[0]];
        } else {
          assert parts[1..] == rest[1..];
          assert Join(rest, sep) == rest[0] + [sep] + Join(rest[1..], sep);
        }
      }
    }
  }

  /** A piece free of the separator, then the separator, then the remainder: the piece
      comes out first and the remainder is split on its own. */
  lemma {:induction false} SplitAfterPiece(w: string, t: string, sep: char)
    requires sep !in w
    ensures Split(w + [sep] + t, sep) == [w] + Split(t, sep)
  {
    if |w| > 0 {
      SplitAfterPiece(w[1..], t, sep);
      assert (w + [sep] + t)[1..] == w[1..] + [sep] + t;
      assert [w[0]] + w[1..] == w;
    } else {
      assert w + [sep] + t == [sep] + t;
      assert ([sep] + t)[1..] == t;
    }
  }

  /** A string free of the separator splits into itself alone. */
  lemma {:induction false} SplitWithoutSeparator(t: string, sep: char)
    requires sep !in t
    ensures Split(t, sep) == [t]
  {
    if |t| > 0 {
      SplitWithoutSeparator(t[1..], sep);
      assert [t[0]] + t[1..] == t;
    }
  }

  /** ASCII lower-casing, standing in for the store's case-insensitive comparison. */
  function LowerChar(c: char): char
  {
    if 'A' <= c <= 'Z' then (c as int + 32) as char else c
  }

  function Lower(s: string): (r: string)
    ensures |r| == |s|
    ensures forall i :: 0 <= i < |s| ==> r[i] == LowerChar(s[i])
  {
    if |s| == 0 then "" else [LowerChar(s[0])] + Lower(s[1..])
  }

  /** `sub` occurs in `s` at some position. */
  predicate Contains(s: string, sub: string)
    decreases |s|
  {
    StartsWith(s, sub) || (|s| > 0 && Contains(s[1..], sub))
  }

  /** `{ contains: sub, mode: 'insensitive' }`. */
  predicate ContainsInsensitive(s: string, sub: string)
  {
    Contains(Lower(s), Lower(sub))
  }

  /** Lexicographic order on strings by character code. */
  predicate LessEq(a: string, b: string)
    decreases |a|
  {
    |a| == 0 || (|b| > 0 && (a[0] < b[0] || (a[0] == b[0] && LessEq(a[1..], b[1..]))))
  }

  lemma {:induction false} LessEqTotal(a: string, b: string)
    ensures LessEq(a, b) || LessEq(b, a)
    decreases |a|
  {
    if |a| > 0 && |b| > 0 && a[0] == b[0] {
      LessEqTotal(a[1..], b[1..]);
    }
  }

  lemma {:induction false} LessEqAntisymmetric(a: string, b: string)
    requires LessEq(a, b) && LessEq(b, a)
    ensures a == b
    decreases |a|
  {
    if |a| > 0 {
      LessEqAntisymmetric(a[1..], b[1..]);
      assert a == [a[0]] + a[1..];
      assert b == [b[0]] + b[1..];
    }
  }

  lemma {:induction false} LessEqTransitive(a: string, b: string, c: string)
    requires LessEq(a, b) && LessEq(b, c)
    ensures LessEq(a, c)
    decreases |a|
  {
    if |a| > 0 && a[0] == b[0] && b[0] == c[0] {
      LessEqTransitive(a[1..], b[1..], c[1..]);
    }
  }
}

=== FILE: user_controller.dfy ===
/** The caller's edit of their own contact details. */
module UserController {
  import opened Outcomes
  import opened Entities
  import opened Validation

  /** A field the edit applies: present and not the empty string. */
  predicate Sets(field: Option<string>)
  {
    field.Some? && |field.value| > 0
  }

  function Apply(field: Option<string>, current: string): string
  {
    if Sets(field) then field.value else current
  }

  /** `updateProfile`: writes the non-empty ones among name, phone and address to the
      caller's own row; role, email, password and deletion are untouched. */
  function UpdateProfile(s: Store, actor: Actor, u: ProfileUpdate): (r: Result<(Store, UserInfo)>)
    ensures !Sets(u.fullName) && !Sets(u.phoneNumber) && !Sets(u.address) ==> r == Err(400, "No fields to update")
    ensures r.Ok? <==> (Sets(u.fullName) || Sets(u.phoneNumber) || Sets(u.address)) && actor.userId in s.users
    ensures r.Ok? ==> OnlyUserChanged(s, r.value.0, actor.userId)
    ensures r.Ok? ==>
      var (s', info) := r.value;
      var before := s.users[actor.userId];
      var after := s'.users[actor.userId];
      && info == InfoOf(actor.userId, after)
      && after.email == before.email && after.password == before.password && after.role == before.role
      && after.isSuperAdmin == before.isSuperAdmin && after.isDeleted == before.isDeleted && after.deletedAt == before.deletedAt
      && after.fullName == (if Sets(u.fullName) then u.fullName.value else before.fullName)
      && after.phoneNumber == (if Sets(u.phoneNumber) then u.phoneNumber.value else before.phoneNumber)
      && after.address == (if Sets(u.address) then u.address.value else before.address)
  {
    if !Sets(u.fullName) && !Sets(u.phoneNumber) && !Sets(u.address) then Err(400, "No fields to update")
    else if actor.userId !in s.users then Err(InternalError, InternalMessage)
    else
      var before := s.users[actor.userId];
      var after := before.(fullName := Apply(u.fullName, before.fullName),
                      phoneNumber := Apply(u.phoneNumber, before.phoneNumber),
                      address := Apply(u.address, before.address));
      Ok((s.(users := s.users[actor.userId := after]), InfoOf(actor.userId, after)))
  }

  /** Empty strings count as absent: blanking a field is the same request as leaving it out. */
  lemma EmptyIsAbsent(s: Store, actor: Actor, u: ProfileUpdate)
    ensures UpdateProfile(s, actor, u.(fullName := Some(""))) == UpdateProfile(s, actor, u.(fullName := None))
    ensures UpdateProfile(s, actor, u.(address := Some(""))) == UpdateProfile(s, actor, u.(address := None))
  {
  }
}

=== FILE: validation.dfy ===
/** The request bodies the handlers accept and the bounds the request schemas put on
    them before any handler runs. Email and uuid formats are not modelled; string
    lengths are counted in Unicode scalar values, where the schemas count UTF-16 code
    units, so a character outside the Basic Multilingual Plane counts once here and
    twice there. */
module Validation {
  import opened Constants
  import opened Outcomes
  import opened Entities

  /** The body of `register` and of `addAdmin`. */
  datatype AccountInput = AccountInput(
    email: string, password: string, fullName: string, phoneNumber: string, address: string)

  datatype LoginInput = LoginInput(email: string, password: string)

  /** An absent field is `None`. */
  datatype ProfileUpdate = ProfileUpdate(
    fullName: Option<string>, phoneNumber: Option<string>, address: Option<string>)

  datatype SellerApplication = SellerApplication(
    businessName: string,
    businessDescription: string,
    paymentMethods: seq<string>,
    averageShippingCost: real,
    estimatedDeliveryDays: int,
    shippingRegions: string,
    socialLinks: Option<string>)

  /** The seven fields a seller may edit on their own profile; an absent field is `None`. */
  datatype SellerProfileUpdate = SellerProfileUpdate(
    businessName: Option<string>,
    businessDescription: Option<string>,
    paymentMethods: Option<seq<string>>,
    averageShippingCost: Option<real>,
    estimatedDeliveryDays: Option<int>,
    shippingRegions: Option<string>,
    socialLinks: Option<string>)

  datatype CategoryInput = CategoryInput(name: Option<string>, description: Option<string>)

  datatype ProductInput = ProductInput(name: string, description: string, price: real, categoryId: Id)

  datatype ProductUpdate = ProductUpdate(
    name: Option<string>, description: Option<string>, price: Option<real>, categoryId: Option<Id>)

  datatype PlaceOrderInput = PlaceOrderInput(
    productId: Id, buyerAddress: string, buyerPhone: string, buyerNotes: Option<string>)

  /** `z.string().min(n).optional()`. */
  predicate OptionalMin(field: Option<string>, n: nat)
  {
    field.Some? ==> |field.value| >= n
  }

  predicate ValidRegistration(i: AccountInput)
  {
    |i.password| >= 6 && |i.fullName| >= 2 && |i.phoneNumber| >= 10 && |i.address| >= 5
  }

  predicate ValidAddAdmin(i: AccountInput)
  {
    |i.password| >= 6 && |i.fullName| >= 2 && |i.phoneNumber| >= 10 && |i.address| >= 5
  }

  predicate ValidLogin(i: LoginInput)
  {
    |i.password| >= 1
  }

  predicate ValidProfileUpdate(u: ProfileUpdate)
  {
    OptionalMin(u.fullName, 2) && OptionalMin(u.phoneNumber, 10) && OptionalMin(u.address, 5)
  }

  predicate ValidSellerApplication(a: SellerApplication)
  {
    && |a.businessName| >= 2
    && |a.businessDescription| >= 10
    && |a.paymentMethods| >= 1
    && a.averageShippingCost > 0.0
    && a.estimatedDeliveryDays > 0
    && |a.shippingRegions| >= 5
  }

  predicate ValidSellerProfileUpdate(u: SellerProfileUpdate)
  {
    && OptionalMin(u.businessName, 2)
    && OptionalMin(u.businessDescription, 10)
    && (u.paymentMethods.Some? ==> |u.paymentMethods.value| >= 1)
    && (u.averageShippingCost.Some? ==> u.averageShippingCost.value > 0.0)
    && (u.estimatedDeliveryDays.Some? ==> u.estimatedDeliveryDays.value > 0)
    && OptionalMin(u.shippingRegions, 5)
  }

  predicate ValidCategory(c: CategoryInput)
  {
    c.name.Some? && |c.name.value| >= 2
  }

  predicate ValidNewProduct(p: ProductInput)
  {
    |p.name| >= 2 && |p.description| >= 10 && p.price > 0.0
  }

  predicate ValidProductUpdate(u: ProductUpdate)
  {
    && OptionalMin(u.name, 2)
    && OptionalMin(u.description, 10)
    && (u.price.Some? ==> u.price.value > 0.0)
  }

  predicate ValidPlaceOrder(i: PlaceOrderInput)
  {
    |i.buyerAddress| >= 5 && |i.buyerPhone| >= 10
  }

  /** `z.enum(['ACCEPTED', 'PROCESSING', 'SHIPPED', 'DELIVERED'])`. */
  predicate ValidStatusUpdate(name: string)
  {
    name == "ACCEPTED" || name == "PROCESSING" || name == "SHIPPED" || name == "DELIVERED"
  }

  /** The status validator accepts exactly the names of the four statuses a seller can
      move an order to, never PENDING or CANCELLED. */
  lemma StatusValidatorTargets(name: string)
    ensures ValidStatusUpdate(name) <==>
      ParseStatus(name).Some? && ParseStatus(name).value in {Accepted, Processing, Shipped, Delivered}
    ensures !ValidStatusUpdate(StatusName(Pending)) && !ValidStatusUpdate(StatusName(Cancelled))
  {
  }

  /** Every field of the update schemas is optional: a body with none of them passes. */
  lemma UpdatesMayOmitEveryField()
    ensures ValidProfileUpdate(ProfileUpdate(None, None, None))
    ensures ValidSellerProfileUpdate(SellerProfileUpdate(None, None, None, None, None, None, None))
    ensures ValidProductUpdate(ProductUpdate(None, None, None, None))
  {
  }
}
